=== FILE: README.md ===
# Sales-forecast upload panel and prediction view, in Dafny

This project models the browser front end of a small sales-forecasting
service. The user uploads two tables, "today" and "tomorrow", as CSV or
Excel files. The panel parses each table and checks that it has the
required columns. The send button is enabled only when both checks pass.
The server's forecast rows are then shown as a summary line, a bar chart
and a detail table.

Modules, one per concern of the two components:

- `Wrappers`: `Option` and `Result`.
- `Seqs`: order-preserving filtering and subsequences.
- `Ints`: `Math.min` and `Math.max` on integers.
- `Text`: JavaScript's `trim` (its exact white-space set), splitting on a
  character, the `/\r?\n/` line split, ASCII lower-casing, decimal digits.
- `Csv`: `parseCSV`.
- `Ingest`: `parseFileToRows` and the error messages of a failed parse.
- `Columns`: `REQUIRED_TODAY`, `REQUIRED_TOMORROW` and `hasRequiredColumns`.
- `Controller`: the two slots, the shared `loading`/`error`/`responseData`
  fields, the handlers, the send-button predicate, the row-count
  advisory, the previews and the response panel.
- `Aggregates`: the day total, the mean per hour, the peak row and the
  scale maximum.
- `Chart`: the chart constants, the gap, the bar width, bar positions and
  heights, and the x-label thinning.
- `PredictionsView`: what the view renders for a list of rows.

Numbers are Dafny `real`s (exact). Integer layout arithmetic uses `int`,
and Dafny's `/` on a positive divisor is `Math.floor`. Every asynchronous
handler is split at its `await`. The synchronous prefix is one function,
and the completion takes the awaited outcome as a parameter. The file's
text, the spreadsheet library's reading of the file and the network
outcome are therefore inputs, not effects.

Two behaviours of the code are worth knowing before reading the model:

- The code has no guard against a parse that completes after a newer
  selection on the same slot. `Controller.FinishParse` applies the result
  whatever file the slot holds, and `Controller.StaleParseOverwrites` shows
  the state this leaves.
- The code has one `error` line shared by both slots and by the send
  action. Any selection clears it, on either slot.

## Model

| member | source | states |
|---|---|---|
| Text.Trim | front/src/components/InteractionBlock.tsx:15-17 | the result is the input with its maximal leading and trailing runs of JavaScript white space removed; it is empty exactly when the input is all white space |
| Text.TrimUnique | front/src/components/InteractionBlock.tsx:15-17 | any split of a string into white space, a core with non-space ends, and white space has `Trim` equal to that core |
| Text.TrimIdempotent | front/src/components/InteractionBlock.tsx:15-17 | trimming a trimmed string changes nothing |
| Text.IsSpace | front/src/components/InteractionBlock.tsx:15-17 | the white space `trim` removes: the ECMAScript WhiteSpace and LineTerminator characters; no contract of its own, used by `Text.Trim` and `Text.TrimUnique` |
| Text.Split | front/src/components/InteractionBlock.tsx:20-22 | the pieces contain no separator, there is at least one, and joined with the separator they give back the text |
| Text.SplitJoin | front/src/components/InteractionBlock.tsx:20-22 | splitting the join of separator-free pieces gives back exactly those pieces |
| Text.SplitLines | front/src/components/InteractionBlock.tsx:16 | the `/\r?\n/` split yields as many lines as there are line feeds plus one, none holding a line feed |
| Text.SplitLinesPiece | front/src/components/InteractionBlock.tsx:16 | line `k` is the `k`-th piece between line feeds, with one carriage return removed exactly when it stands right before the line feed that ends the piece; the last piece is kept whole |
| Text.TrimIgnoresCR | front/src/components/InteractionBlock.tsx:16-17 | a carriage return left before a line feed disappears in the per-line trim |
| Text.NatToStringRoundTrip | front/src/components/InteractionBlock.tsx:24 | the decimal digits of `i + 1` read back as `i + 1` |
| Text.ToLower | front/src/components/InteractionBlock.tsx:86 | lower-casing keeps the length; no other contract of its own, its use is stated by `Ingest.KindIgnoresCase`, `Ingest.ToLowerConcat` and `Ingest.ToLowerSuffix` |
| Text.EndsWith | front/src/components/InteractionBlock.tsx:87-91 | the suffix test; no contract of its own, the dispatch built on it is stated by `Ingest.KindOfOnlySuffixes` |
| Csv.ContentLines | front/src/components/InteractionBlock.tsx:14-18 | every kept line is non-empty and already trimmed |
| Csv.TrimAll | front/src/components/InteractionBlock.tsx:17 | each string trimmed, one result per input in the same order |
| Csv.NonBlank | front/src/components/InteractionBlock.tsx:18 | the `filter(Boolean)` test on a string; no contract of its own, stated through `Csv.ContentLines` and `Csv.ContentLinesEmpty` |
| Csv.ContentLinesEmpty | front/src/components/InteractionBlock.tsx:14-19 | there are no content lines exactly when the text is empty or white space only |
| Csv.ContentLinesIgnoreCR | front/src/components/InteractionBlock.tsx:16-18 | CR LF and LF line breaks give the same content lines |
| Csv.ContentLinesOfJoin | front/src/components/InteractionBlock.tsx:14-18 | trimmed non-empty lines joined by line feeds are read back as exactly those lines |
| Csv.ParseCsv | front/src/components/InteractionBlock.tsx:13-27 | `parseCSV`; no contract of its own, its row count, keys and cells are stated by `Csv.ParseCsvRowCount`, `Csv.ParseCsvKeys` and `Csv.ParseCsvCell` |
| Csv.HeaderNames | front/src/components/InteractionBlock.tsx:20-24 | the keys of every row, the trimmed header cells with empty ones renamed; no contract of its own, stated by `Csv.HeaderNamesTrimmed`, `Csv.SyntheticNamesDistinct` and `Csv.ParseCsvKeys` |
| Csv.RowsOf | front/src/components/InteractionBlock.tsx:21-26 | one row per line after the header, row `k` built from line `k`'s fields under the header names |
| Csv.Fields | front/src/components/InteractionBlock.tsx:22 | a line yields one trimmed field per comma-separated piece |
| Csv.CellAt | front/src/components/InteractionBlock.tsx:24 | `cols[i] ?? null`; no contract of its own, stated by `Csv.ParseCsvCell` and `Csv.ShortLinePadsNull` |
| Csv.ParseCsvRowCount | front/src/components/InteractionBlock.tsx:13-21 | white-space-only text gives no rows; otherwise there is one row per content line after the header |
| Csv.ParseCsvKeys | front/src/components/InteractionBlock.tsx:20-26 | every row has exactly the header names as keys, whatever the line's field count |
| Csv.ParseCsvCell | front/src/components/InteractionBlock.tsx:22-24 | under header position `i` a row holds the trimmed `i`-th field, or `null` when the line is shorter, unless a later header position reuses the name |
| Csv.BuildRow | front/src/components/InteractionBlock.tsx:23-24 | a position's name maps to that position's cell unless a later position has the same name |
| Csv.BuildRowKeys | front/src/components/InteractionBlock.tsx:23-24 | the object's keys are exactly the names of the assigned positions |
| Csv.ColumnName | front/src/components/InteractionBlock.tsx:24 | the key of header cell `h` at position `i`, `h || col<i+1>`; no contract of its own, its properties are stated by `Csv.SyntheticNamesDistinct` and `Csv.HeaderNamesTrimmed` |
| Csv.NamesUpToMembers | front/src/components/InteractionBlock.tsx:23-24 | a string is among the assigned names exactly when some assigned position carries it |
| Csv.SyntheticNamesDistinct | front/src/components/InteractionBlock.tsx:24 | the `col<i+1>` names of two different empty header cells differ |
| Csv.HeaderNamesTrimmed | front/src/components/InteractionBlock.tsx:20-24 | every key of a parsed row is already trimmed |
| Csv.ShortLinePadsNull | front/src/components/InteractionBlock.tsx:24 | header `a,b,c` over the line `1,2` gives `{a: "1", b: "2", c: null}` |
| Ingest.ParseFileToRows | front/src/components/InteractionBlock.tsx:85-103 | a `.csv` name is read by the CSV parser and never fails; `.xlsx`/`.xls` yields the spreadsheet outcome; any other name fails with the unsupported-format error |
| Ingest.KindOf | front/src/components/InteractionBlock.tsx:86-91 | the suffix dispatch on the lower-cased name; no contract of its own, stated exactly by `Ingest.KindOfOnlySuffixes` and by `Ingest.KindIgnoresCase` |
| Ingest.KindIgnoresCase | front/src/components/InteractionBlock.tsx:86 | two names that differ only in letter case select the same reader |
| Ingest.UnsupportedReadsNothing | front/src/components/InteractionBlock.tsx:86-102 | for an unsupported name the outcome is the same failure whatever the file holds |
| Ingest.CsvSuffix | front/src/components/InteractionBlock.tsx:86-87 | any name whose last four characters lower-case to `.csv` is read as CSV |
| Ingest.WorkbookSuffix | front/src/components/InteractionBlock.tsx:86-91 | any name ending, in any letter case, in `.xlsx` or `.xls` is read as a spreadsheet |
| Ingest.UnsupportedByLastChar | front/src/components/InteractionBlock.tsx:86-91 | a name whose last character is not `v`, `x` or `s` in any case is unsupported |
| Ingest.ToLowerConcat | front/src/components/InteractionBlock.tsx:86 | lower-casing a concatenation lower-cases each part |
| Ingest.ToLowerSuffix | front/src/components/InteractionBlock.tsx:86-87 | lower-casing commutes with taking a suffix |
| Ingest.KindOfOnlySuffixes | front/src/components/InteractionBlock.tsx:86-102 | a name is read as CSV if and only if it ends in `.csv` in some letter case, as a spreadsheet if and only if it ends in `.xlsx` or `.xls`, and is unsupported if and only if it ends in none of them |
| Ingest.KindExamples | front/src/components/InteractionBlock.tsx:86-91 | whatever the stem, the extensions `.CSV`, `.Xlsx` and `.XLS` select the CSV and spreadsheet readers |
| Ingest.UnsupportedExamples | front/src/components/InteractionBlock.tsx:86-91 | `notes.txt` and `today.csv.bak` are unsupported |
| Ingest.MessagesDistinct | front/src/components/InteractionBlock.tsx:118-124 | the missing-package hint differs from the unsupported-format message |
| Ingest.ErrorMessage | front/src/components/InteractionBlock.tsx:118-124 | the error line of a failed parse; no contract of its own, stated by `Ingest.MessagesDistinct` and `Controller.SelectOutcome` |
| Columns.MissingColumns | front/src/components/InteractionBlock.tsx:64 | a name is missing exactly when it is required and absent from the keys; the missing list keeps the required order and is empty exactly when all are present |
| Columns.TrimmedKeys | front/src/components/InteractionBlock.tsx:63 | the trimmed keys of the first row; no contract of its own, stated through `Columns.HasRequiredColumns` and `Columns.CsvCheck` |
| Columns.HasRequiredColumns | front/src/components/InteractionBlock.tsx:58-70 | an absent or empty table gives `ok = false` and the whole required list; otherwise the missing names of the first row's trimmed keys, and `ok` exactly when none is missing |
| Columns.OkImpliesRows | front/src/components/InteractionBlock.tsx:58-69 | a passing check implies a present, non-empty table |
| Columns.MissingSplits | front/src/components/InteractionBlock.tsx:64 | the missing list of a concatenation is the concatenation of the missing lists |
| Columns.CsvCheck | front/src/components/InteractionBlock.tsx:63-64 | for a parsed CSV the check compares the required names with the header names themselves |
| Columns.MissingDiscount | front/src/components/InteractionBlock.tsx:30-70 | a "today" table lacking only `discount` reports exactly `["discount"]` and fails |
| Columns.RequiredLists | front/src/components/InteractionBlock.tsx:30-56 | `REQUIRED_TODAY` has 12 distinct columns and `REQUIRED_TOMORROW` 10; the seven from `discount` to `avg_wind_level` open the tomorrow list in the today list's order |
| Aggregates.SumTotals | front/src/components/PredictionsView.tsx:15 | `totalDay`, the left fold of the day totals; no contract of its own, its properties are stated by `Aggregates.SumTotalsConcat`, `Aggregates.NonNegativeSum` and `Aggregates.TotalCoversEachRow` |
| Aggregates.SumMeans | front/src/components/PredictionsView.tsx:16 | the sum of the hourly means; no contract of its own, bounded by `Aggregates.SumMeansBounds` |
| Aggregates.AverageMean | front/src/components/PredictionsView.tsx:16 | `avgMean`; no contract of its own, stated by `Aggregates.AverageBetween` and `PredictionsView.SummaryFacts` |
| Aggregates.PeakStep | front/src/components/PredictionsView.tsx:17-21 | one step of the peak reduce, replacing the accumulator only on a strictly greater total; no contract of its own, stated by `Aggregates.PeakOfPrefix` |
| Aggregates.PeakOfPrefix | front/src/components/PredictionsView.tsx:17-21 | the peak reduce over a prefix is empty only for the empty prefix and otherwise returns the first index of its largest total, with that total |
| Aggregates.PeakIndex | front/src/components/PredictionsView.tsx:17-21 | the peak index holds the largest total and no earlier row reaches it |
| Aggregates.PeakIndexUnique | front/src/components/PredictionsView.tsx:17-21 | the first index of the largest total is the only index the peak can be; ties go to the earliest row |
| Aggregates.PeakTieExample | front/src/components/PredictionsView.tsx:19 | totals `10, 30, 30, 5` have their peak at index 1 |
| Aggregates.MaxTotal | front/src/components/PredictionsView.tsx:30 | the scale maximum is at least 1 and at least every total, and it is 1 or one of the totals |
| Aggregates.MaxTotalIsPeak | front/src/components/PredictionsView.tsx:17-30 | the scale maximum is the peak's total raised to 1 when below 1 |
| Aggregates.SumTotalsConcat | front/src/components/PredictionsView.tsx:15 | the day total of a concatenation is the sum of the parts' day totals |
| Aggregates.NonNegativeSum | front/src/components/PredictionsView.tsx:15 | non-negative totals give a non-negative day total |
| Aggregates.TotalCoversEachRow | front/src/components/PredictionsView.tsx:15 | with non-negative totals the day total is at least each row's total |
| Aggregates.SumMeansBounds | front/src/components/PredictionsView.tsx:16 | hourly means within `[lo, hi]` sum to between `n*lo` and `n*hi` |
| Aggregates.AverageBetween | front/src/components/PredictionsView.tsx:16 | the mean per hour lies between the smallest and the largest hourly mean |
| Chart.Gap | front/src/components/PredictionsView.tsx:35 | the gap lies in `[2, 6]` |
| Chart.GapExtremes | front/src/components/PredictionsView.tsx:35 | the gap is 6 up to 18 bars and 2 from 37 bars on |
| Chart.GapAntitone | front/src/components/PredictionsView.tsx:35 | more bars never give a wider gap |
| Chart.BarWidth | front/src/components/PredictionsView.tsx:36 | the bar width is at least 6 |
| Chart.FloorWidth | front/src/components/PredictionsView.tsx:36 | `floor((innerW - gap * (count - 1)) / count)`; no contract of its own, stated by `Chart.BarsFitWhenWide`, `Chart.WideUpTo81` and `Chart.NarrowFrom82` |
| Chart.BarsFitWhenWide | front/src/components/PredictionsView.tsx:36 | when the floor term is at least 6 the bars and gaps fit in 648 pixels, and one pixel more per bar would not |
| Chart.WideUpTo81 | front/src/components/PredictionsView.tsx:35-36 | up to 81 bars the floor term is at least 6 |
| Chart.NarrowFrom82 | front/src/components/PredictionsView.tsx:35-36 | from 82 bars the width is clamped to 6 and the bars overrun the plotting width |
| Chart.BarsFitIff | front/src/components/PredictionsView.tsx:24-36 | the bars fit in the plotting width exactly when there are at most 81 |
| Chart.BarX | front/src/components/PredictionsView.tsx:100 | the left edge `padding.left + i * (barW + gap)`; no contract of its own, stated by `Chart.BarsOrdered` and `Chart.LastBarInside` |
| Chart.BarsOrdered | front/src/components/PredictionsView.tsx:100 | bar x positions strictly increase, at least a bar width plus a gap apart |
| Chart.NextBarX | front/src/components/PredictionsView.tsx:100 | the next bar starts a bar width plus a gap to the right |
| Chart.LastBarInside | front/src/components/PredictionsView.tsx:100 | with at most 81 bars the last bar ends inside the plotting area |
| Chart.DrawnHeight | front/src/components/PredictionsView.tsx:109 | the drawn height is at least 1 and at least the computed height, and is one of the two |
| Chart.BarHeight | front/src/components/PredictionsView.tsx:99 | `total / maxTotal * innerH`; no contract of its own, stated by `Chart.HeightBounds` and `Chart.HeightMonotone` |
| Chart.BarTop | front/src/components/PredictionsView.tsx:101 | `padding.top + (innerH - barHeight)`; no contract of its own, stated by `Chart.HeightBounds` and `Chart.BarBottom` |
| Chart.BarBottom | front/src/components/PredictionsView.tsx:99-109 | a bar ends on the plot's base when its computed height is at least 1, and otherwise reaches below the base by one pixel less that height |
| Chart.FullHeight | front/src/components/PredictionsView.tsx:99-109 | the total that sets the scale is drawn over the full 180 pixels from the top of the plot |
| Chart.HeightBounds | front/src/components/PredictionsView.tsx:99-101 | a total in `[0, maxTotal]` is drawn between 1 and 180 high with its top inside the plot |
| Chart.HeightMonotone | front/src/components/PredictionsView.tsx:99 | a larger total never gets a shorter bar |
| Chart.CeilDiv20 | front/src/components/PredictionsView.tsx:134 | the step `k` is the least with `count <= 20 * k` |
| Chart.ShowLabel | front/src/components/PredictionsView.tsx:134 | the thinning rule; no contract of its own, stated by `Chart.LabelsBelow`, `Chart.AllLabelledWhenFew` and `Chart.LabelsBounded` |
| Chart.XLabels | front/src/components/PredictionsView.tsx:132-134 | the labelled bar indices; no contract of its own, stated by `Chart.LabelsBounded` and `PredictionsView.LabelsSelected` |
| Chart.LabelsBelow | front/src/components/PredictionsView.tsx:132-134 | exactly the shown indices below `n`, in strictly increasing order |
| Chart.AllLabelledWhenFew | front/src/components/PredictionsView.tsx:134 | up to 20 bars every bar is labelled |
| Chart.MultiplesGrow | front/src/components/PredictionsView.tsx:134 | in an increasing run of multiples of `k`, entry `m` is at least `m*k` |
| Chart.LabelsBounded | front/src/components/PredictionsView.tsx:132-134 | bar 0 is always labelled and at most 20 labels are drawn |
| PredictionsView.StyleOf | front/src/components/PredictionsView.tsx:6-7 | grouping exactly from 1000 on; below it, no decimals exactly for whole numbers, two otherwise |
| PredictionsView.StyleExamples | front/src/components/PredictionsView.tsx:6-7 | 999 and -3 have no decimals, 999.5 and 0.25 have two, 1000 and 1500.25 are grouped |
| PredictionsView.WholeTextRoundTrip | front/src/components/PredictionsView.tsx:7 | the zero-decimal text of a whole number, minus sign included, reads back as that number |
| PredictionsView.WholeText | front/src/components/PredictionsView.tsx:7 | the zero-decimal text is never empty; read back by `PredictionsView.WholeTextRoundTrip` |
| PredictionsView.Round2 | front/src/components/PredictionsView.tsx:71 | the tick value is a whole number of hundredths within half a hundredth of the exact value |
| PredictionsView.Round2Keeps | front/src/components/PredictionsView.tsx:71 | a value with at most two decimals is printed as it is |
| PredictionsView.TickAt | front/src/components/PredictionsView.tsx:70-72 | one tick's line height and rounded value; no contract of its own, stated by `PredictionsView.TicksSpanScale` and `PredictionsView.TickAlignsWithBar` |
| PredictionsView.Ticks | front/src/components/PredictionsView.tsx:69-72 | there are three ticks; their positions and all three values are stated by `PredictionsView.TicksSpanScale` |
| PredictionsView.TicksSpanScale | front/src/components/PredictionsView.tsx:70-72 | the three ticks sit at the top, middle and base of the plot, showing the scale maximum rounded to hundredths, half of it within half a hundredth, and 0 |
| PredictionsView.TickAlignsWithBar | front/src/components/PredictionsView.tsx:70-101 | a bar whose total is a tick's exact value has its top on that tick's line |
| PredictionsView.Render | front/src/components/PredictionsView.tsx:10-12 | the "no predictions" indicator exactly for an empty list; otherwise one bar per row, at most 20 labels and `min(20, n)` table rows; what each part shows is stated by the `PredictionsView` lemmas below |
| PredictionsView.SummaryOf | front/src/components/PredictionsView.tsx:15-21 | the summary figures; no contract of its own, stated by `PredictionsView.SummaryFacts` |
| PredictionsView.BarFor | front/src/components/PredictionsView.tsx:99-123 | the bar of row `i`; no contract of its own, stated by `PredictionsView.BarsPlaced`, `PredictionsView.BarsScaled`, `PredictionsView.BarsFollowTotals` and `PredictionsView.BarsInsidePlot` |
| PredictionsView.LabelFor | front/src/components/PredictionsView.tsx:133-143 | the x-axis label of bar `i`; no contract of its own, stated by `PredictionsView.LabelsCentred` and `PredictionsView.LabelsSelected` |
| PredictionsView.TableRowFor | front/src/components/PredictionsView.tsx:165-169 | the table line of row `i`; no contract of its own, stated by `PredictionsView.TableIsPrefix` |
| PredictionsView.RenderFields | front/src/components/PredictionsView.tsx:30-123 | a rendered list carries the gap, bar width and scale maximum of its length and rows, and bar `i` is that row's bar |
| PredictionsView.RenderLayout | front/src/components/PredictionsView.tsx:30-36 | the gap is in `[2, 6]`, 6 up to 18 rows and 2 from 37; bars are at least 6 wide, exactly as wide as fits to the pixel up to 81 rows and 6 beyond; the scale maximum is the peak total raised to 1 |
| PredictionsView.RenderTicks | front/src/components/PredictionsView.tsx:69-72 | the rendered list has three ticks at the top, middle and base showing its scale maximum, half of it within half a hundredth, and 0 |
| PredictionsView.BarsPlaced | front/src/components/PredictionsView.tsx:100-108 | the first bar starts at the left padding, each next one a bar width plus a gap further right, and every bar is the computed width |
| PredictionsView.DrawnToScale | front/src/components/PredictionsView.tsx:99-109 | what it means for a drawn height to stand for a total: scaled back by the maximum it is at least the total times 180, and equal unless the one-pixel floor applies |
| PredictionsView.DrawnScale | front/src/components/PredictionsView.tsx:99-109 | the drawn height of a total stands for that total on its scale |
| PredictionsView.ScaleBack | front/src/components/PredictionsView.tsx:99 | the computed height times the scale maximum is the total times 180 |
| PredictionsView.BarsScaled | front/src/components/PredictionsView.tsx:99-109 | every bar is at least 1 high and its height is its row's total as a share of the scale maximum times 180, unless the one-pixel floor raises it |
| PredictionsView.BarsFollowTotals | front/src/components/PredictionsView.tsx:99-109 | a row with a larger total never gets a shorter bar, nor one whose top is lower |
| PredictionsView.PeakBarFull | front/src/components/PredictionsView.tsx:17-109 | when the peak total is at least 1 the peak bar fills the 180 pixels from the top of the plot |
| PredictionsView.LabelsCentred | front/src/components/PredictionsView.tsx:117-133 | each x-axis label is centred under the bar it numbers |
| PredictionsView.SummaryFacts | front/src/components/PredictionsView.tsx:15-21 | the summary shows the day total, the mean of the hourly means and the one-based first row of the largest total with that total |
| PredictionsView.ExactlyOnePeak | front/src/components/PredictionsView.tsx:102 | exactly one bar, the peak row's, has the peak fill |
| PredictionsView.PeakBarTallest | front/src/components/PredictionsView.tsx:99-109 | no bar is drawn taller than the peak bar |
| PredictionsView.BarsLaidOut | front/src/components/PredictionsView.tsx:100 | bars lie left to right at least a gap apart, and with at most 81 rows all end inside the plot |
| PredictionsView.BarsInsidePlot | front/src/components/PredictionsView.tsx:99-123 | a non-negative total is drawn between 1 and 180 high, with its top inside the plot, and captioned with its total |
| PredictionsView.BarsEndOnBase | front/src/components/PredictionsView.tsx:99-109 | a bar ends on the plot's base exactly when its computed height is at least 1; a lower bar, raised to one pixel, reaches below the base by at most a pixel |
| PredictionsView.LabelsSelected | front/src/components/PredictionsView.tsx:132-146 | bar `i` gets a label exactly when the thinning rule shows it, and each label reads its one-based bar number |
| PredictionsView.TableIsPrefix | front/src/components/PredictionsView.tsx:165-169 | the detail table lists the first `min(20, n)` rows, numbered from 1 |
| PredictionsView.SingleRowExample | front/src/components/PredictionsView.tsx:15-30 | one row of 2.5 per hour and 60 per day shows total 60, mean 2.5, peak row 1 with 60, on a scale to 60 |
| Controller.Put | front/src/components/InteractionBlock.tsx:73-83 | replacing one slot leaves the other slot and the shared fields as they were |
| Controller.Check | front/src/components/InteractionBlock.tsx:196-197 | `chkToday` / `chkTomorrow`; no contract of its own, stated by `Controller.SubmitEnabledIff` and `Controller.CheckIgnoresLaterRows` |
| Controller.SubmitDisabled | front/src/components/InteractionBlock.tsx:449-457 | the send button's `disabled` expression, conjunct for conjunct; no contract of its own, stated by `Controller.SubmitEnabledIff` and `Controller.SubmitEnabledMeansColumns` |
| Controller.SubmitEnabledIff | front/src/components/InteractionBlock.tsx:449-457 | the button is enabled exactly when not loading and both column checks pass; the presence and length conjuncts are redundant |
| Controller.SubmitEnabledMeansColumns | front/src/components/InteractionBlock.tsx:449-457 | the button is enabled exactly when not loading and both slots hold a non-empty table whose first row has every required column |
| Controller.RowCountWarning | front/src/components/InteractionBlock.tsx:439-444 | the advisory shows exactly when both tables are present with different lengths, and it carries both lengths |
| Controller.CheckIgnoresLaterRows | front/src/components/InteractionBlock.tsx:63 | rows after the first do not change a column check |
| Controller.WarningDoesNotBlock | front/src/components/InteractionBlock.tsx:439-457 | adding rows to one table leaves an enabled button enabled |
| Controller.WarningWithEnabledButton | front/src/components/InteractionBlock.tsx:439-457 | the advisory and an enabled button can appear together |
| Controller.Preview | front/src/components/InteractionBlock.tsx:192-194 | no table gives an empty preview; otherwise the preview is the first `min(5, n)` rows, a prefix of the table |
| Controller.NameLabel | front/src/components/InteractionBlock.tsx:336 | the name line under each upload button; no contract of its own, stated by `Controller.NameLabelShown` |
| Controller.NameLabelShown | front/src/components/InteractionBlock.tsx:110-134 | the name line reads "no file chosen" initially and after a dismissed dialog, and the file's name after a selection |
| Controller.MissingAlert | front/src/components/InteractionBlock.tsx:342-346 | the alert appears exactly for a present table whose check fails; for a non-empty table it lists exactly the required columns absent from the first row's trimmed keys |
| Controller.MissingAlertCases | front/src/components/InteractionBlock.tsx:342-346 | no alert without a table, every required column for an empty table, none when the check passes |
| Controller.BeginSelect | front/src/components/InteractionBlock.tsx:105-112 | a selection clears the shared error and response, records the file, forgets the slot's rows and leaves the other slot alone |
| Controller.FinishParse | front/src/components/InteractionBlock.tsx:113-126 | a parsed table becomes the slot's rows; a failure leaves the slot as it was and sets the error line |
| Controller.SelectFile | front/src/components/InteractionBlock.tsx:105-150 | after a selection the slot holds the chosen file and its name, the other slot is untouched and no response is shown |
| Controller.SelectOutcome | front/src/components/InteractionBlock.tsx:105-127 | the slot has rows exactly when the parse succeeds, and the error line shows exactly when it fails, with its message |
| Controller.UnsupportedSelection | front/src/components/InteractionBlock.tsx:102-127 | an unsupported file leaves no rows, shows the format message and keeps sending disabled |
| Controller.CsvSelection | front/src/components/InteractionBlock.tsx:87-115 | a CSV file's rows are the CSV parser's table and no error is shown |
| Controller.InitialCoherent | front/src/components/InteractionBlock.tsx:73-83 | the initial state, `Controller.Initial` (no files, no rows, not loading, no error, no response), is coherent and cannot send |
| Controller.SelectKeepsCoherent | front/src/components/InteractionBlock.tsx:105-150 | an uninterrupted selection keeps every slot's rows those of its current file |
| Controller.StaleParseOverwrites | front/src/components/InteractionBlock.tsx:105-127 | a parse completing after a newer selection installs the older file's rows beside the newer file |
| Controller.BeginSend | front/src/components/InteractionBlock.tsx:152-170 | the error and response are cleared; a missing today file, then a missing tomorrow file, is reported; otherwise loading starts and both files are sent |
| Controller.ServerErrorMessage | front/src/components/InteractionBlock.tsx:177-180 | a failed status gives a message starting `Server error: `, followed by the status's decimal digits, a space and the whole response text |
| Controller.ServerErrorIdentifiesStatus | front/src/components/InteractionBlock.tsx:179 | two statuses with the same body text give different messages |
| Controller.TransportMessage | front/src/components/InteractionBlock.tsx:177-186 | the error line of a failed request; no contract of its own, stated by `Controller.FinishSend` and `Controller.ServerErrorMessage` |
| Controller.FinishSend | front/src/components/InteractionBlock.tsx:171-189 | loading always ends; a body becomes the response; a failure becomes the error line; the slots are untouched |
| Controller.Click | front/src/components/InteractionBlock.tsx:447-457 | a click on a disabled button changes nothing |
| Controller.EnabledClickOutcome | front/src/components/InteractionBlock.tsx:152-170 | an enabled click keeps both slots, hides the response, sends both files exactly when both are chosen, and otherwise reports the first missing file without loading |
| Controller.EnabledClickSends | front/src/components/InteractionBlock.tsx:152-170 | an enabled click in a coherent state sends both files and disables the button |
| Controller.NoSecondRequest | front/src/components/InteractionBlock.tsx:449-450 | a click while loading does nothing |
| Controller.SendIsRetryable | front/src/components/InteractionBlock.tsx:185-189 | whatever the outcome, the button is enabled again over the same tables |
| Controller.SendKeepsCoherent | front/src/components/InteractionBlock.tsx:152-189 | sending keeps the slots coherent |
| Controller.ResponsePanel | front/src/components/InteractionBlock.tsx:481-487 | the prediction view is shown exactly when the response carries `rows` |
| Controller.DeliveredRowsShown | front/src/components/InteractionBlock.tsx:481-482 | delivered rows are rendered, and an empty list shows "no predictions" rather than the placeholder |
| Controller.SelectHidesResponse | front/src/components/InteractionBlock.tsx:107 | choosing a file hides the previous prediction |

## Left out

- Reading a file (`f.text()`, `f.arrayBuffer()`) is not modelled. Its result is carried by the file value, and a failed read is not represented.
- The spreadsheet path is an opaque outcome: the rows the library reads from the first sheet, or an error. The library, the first-sheet lookup and `defval: null` are not modelled.
- Ingest.ErrorMessage: the handlers detect a missing `xlsx` package by searching the error's text for `Cannot find module 'xlsx'` or `Cannot resolve`. The model uses a separate error kind instead. A different spreadsheet error whose text contains one of those phrases would also get the package hint in the code; the model shows its own message.
- The `fetch`/`FormData` transport, the URL and the JSON decoding are reduced to an outcome: a parsed body, an HTTP status with its text, or a thrown message. A body whose `rows` is not a list of rows is not modelled.
- `toLocaleString` and `toFixed(2)`/`toFixed(3)` text are locale- and float-dependent. Only the branch `numberFormat` takes and the zero-decimal text of whole numbers are modelled.
- JavaScript numbers are modelled as exact reals. IEEE-754 rounding, `NaN`, `Infinity`, `-0` and the `?? 0` guard against missing fields are not. The peak seed `-Infinity` is the empty accumulator, which every real total beats.
- `Object.keys` order is not modelled. Keys are a set, so the preview's column order is left out. A header named `__proto__`, which a plain object does not store as a key, is not modelled either.
- `toLowerCase` is modelled for ASCII letters only.
- Interleavings are represented by calling the begin and finish halves of the handlers in any order. React's batching and re-render timing are not modelled.
- SVG, CSS and text markup, including colours, the bar captions' positions and the striping of the table, are left out.
- PredictionsView.WholeText: prints every digit of a whole number. `toFixed(0)` switches to exponent form from a magnitude of 1e21 on, so a whole number of -1e21 or below, which takes the zero-decimal branch, prints as `-1e+21` in the code; that form is not modelled.
- Aggregates.MaxTotal: is defined for any number of rows. `Math.max(...rows.map(...), 1)` spreads the totals into arguments and throws a `RangeError` when the list exceeds the engine's argument limit; that failure is not modelled.

=== FILE: aggregates.dfy ===
/** The summary figures of the prediction view (PredictionsView.tsx): the
    day total, the mean per hour, the peak row and the chart's scale
    maximum. Numbers are exact reals. */
module Aggregates {

  /** One forecast row as the prediction service returns it. */
  datatype PredictionRow = PredictionRow(meanPerHour: real, dayTotal: real)

  /** `rows.reduce((s, r) => s + r.predicted_day_total, 0)`, a left fold. */
  function SumTotals(rows: seq<PredictionRow>): real {
    if |rows| == 0 then 0.0 else SumTotals(rows[..|rows| - 1]) + rows[|rows| - 1].dayTotal
  }

  /** `rows.reduce((s, r) => s + r.predicted_mean_per_hour, 0)`. */
  function SumMeans(rows: seq<PredictionRow>): real {
    if |rows| == 0 then 0.0 else SumMeans(rows[..|rows| - 1]) + rows[|rows| - 1].meanPerHour
  }

  /** `avgMean`: the sum of the hourly means divided by the row count. */
  function AverageMean(rows: seq<PredictionRow>): real
    requires |rows| > 0
  {
    SumMeans(rows) / |rows| as real
  }

  /** The accumulator of the peak search. `NoneYet` is the seed
      `{ value: -Infinity, idx: -1 }`, which every finite total beats. */
  datatype Best = NoneYet | Best(value: real, idx: nat)

  /** One step of the peak reduce: a row replaces the accumulator only when
      its total is strictly greater. */
  function PeakStep(acc: Best, r: PredictionRow, i: nat): Best {
    match acc
    case NoneYet => Best(r.dayTotal, i)
    case Best(v, _) => if r.dayTotal > v then Best(r.dayTotal, i) else acc
  }

  /** `i` holds the largest total of `rows` and no earlier row reaches it. */
  ghost predicate IsFirstMax(rows: seq<PredictionRow>, i: int) {
    && 0 <= i < |rows|
    && (forall j :: 0 <= j < |rows| ==> rows[j].dayTotal <= rows[i].dayTotal)
    && (forall j :: 0 <= j < i ==> rows[j].dayTotal < rows[i].dayTotal)
  }

  /** The reduce `maxRow` over the first `n` rows. */
  function PeakOfPrefix(rows: seq<PredictionRow>, n: nat): (b: Best)
    requires n <= |rows|
    ensures b.NoneYet? <==> n == 0
    ensures b.Best? ==> IsFirstMax(rows[..n], b.idx) && b.value == rows[b.idx].dayTotal
  {
    if n == 0 then NoneYet
    else
      var b := PeakStep(PeakOfPrefix(rows, n - 1), rows[n - 1], n - 1);
      assert forall j :: 0 <= j < n - 1 ==> rows[..n][j] == rows[..n - 1][j];
      b
  }

  /** The index of the peak row (shown one-based as "row idx + 1"). */
  function PeakIndex(rows: seq<PredictionRow>): (i: nat)
    requires |rows| > 0
    ensures IsFirstMax(rows, i)
  {
    assert rows[..|rows|] == rows;
    PeakOfPrefix(rows, |rows|).idx
  }

  /** The peak is the only index with the first-maximum property: ties go to
      the earliest row. */
  lemma PeakIndexUnique(rows: seq<PredictionRow>, i: int)
    requires IsFirstMax(rows, i)
    ensures i == PeakIndex(rows)
  {
    var p := PeakIndex(rows);
    assert rows[i].dayTotal == rows[p].dayTotal;
  }

  /** `maxTotal = Math.max(...totals, 1)`. */
  function MaxTotal(rows: seq<PredictionRow>): (m: real)
    ensures m >= 1.0
    ensures forall j :: 0 <= j < |rows| ==> rows[j].dayTotal <= m
    ensures m == 1.0 || exists j :: 0 <= j < |rows| && rows[j].dayTotal == m
  {
    if |rows| == 0 then 1.0
    else
      var m := MaxTotal(rows[..|rows| - 1]);
      var last := rows[|rows| - 1].dayTotal;
      assert forall j :: 0 <= j < |rows| - 1 ==> rows[..|rows| - 1][j] == rows[j];
      if last > m then last else m
  }

  /** The chart's scale maximum is the peak row's total, raised to 1 when
      the peak is below 1. */
  lemma MaxTotalIsPeak(rows: seq<PredictionRow>)
    requires |rows| > 0
    ensures var v := rows[PeakIndex(rows)].dayTotal; MaxTotal(rows) == if v >= 1.0 then v else 1.0
  {
  }

  /** The peak of `[10, 30, 30, 5]` is the first 30, at index 1. */
  lemma PeakTieExample()
    ensures PeakIndex([PredictionRow(0.0, 10.0), PredictionRow(0.0, 30.0),
                       PredictionRow(0.0, 30.0), PredictionRow(0.0, 5.0)]) == 1
  {
    var rows := [PredictionRow(0.0, 10.0), PredictionRow(0.0, 30.0),
                 PredictionRow(0.0, 30.0), PredictionRow(0.0, 5.0)];
    assert IsFirstMax(rows, 1);
    PeakIndexUnique(rows, 1);
  }

  /** Hourly means within `[lo, hi]` sum to a value within `n*lo` and
      `n*hi`. */
  lemma {:induction false} SumMeansBounds(rows: seq<PredictionRow>, lo: real, hi: real)
    requires forall j :: 0 <= j < |rows| ==> lo <= rows[j].meanPerHour <= hi
    ensures |rows| as real * lo <= SumMeans(rows) <= |rows| as real * hi
  {
    if |rows| > 0 {
      var init := rows[..|rows| - 1];
      assert forall j :: 0 <= j < |init| ==> init[j] == rows[j];
      SumMeansBounds(init, lo, hi);
      var m := |init| as real;
      assert |rows| as real * lo == m * lo + lo;
      assert |rows| as real * hi == m * hi + hi;
    }
  }

  /** The mean per hour lies between the smallest and the largest hourly
      mean of the rows. */
  lemma AverageBetween(rows: seq<PredictionRow>, lo: real, hi: real)
    requires |rows| > 0
    requires forall j :: 0 <= j < |rows| ==> lo <= rows[j].meanPerHour <= hi
    ensures lo <= AverageMean(rows) <= hi
  {
    SumMeansBounds(rows, lo, hi);
    var n := |rows| as real;
    assert AverageMean(rows) * n == SumMeans(rows);
  }

  /** With no negative totals, the day total is at least every single row's
      total, the peak's in particular. */
  lemma {:induction false} TotalCoversEachRow(rows: seq<PredictionRow>, i: int)
    requires forall j :: 0 <= j < |rows| ==> rows[j].dayTotal >= 0.0
    requires 0 <= i < |rows|
    ensures rows[i].dayTotal <= SumTotals(rows)
  {
    var init := rows[..|rows| - 1];
    assert forall j :: 0 <= j < |init| ==> init[j] == rows[j];
    NonNegativeSum(init);
    if i < |rows| - 1 {
      TotalCoversEachRow(init, i);
    }
  }

  /** Totals that are never negative sum to a non-negative day total. */
  lemma {:induction false} NonNegativeSum(rows: seq<PredictionRow>)
    requires forall j :: 0 <= j < |rows| ==> rows[j].dayTotal >= 0.0
    ensures SumTotals(rows) >= 0.0
  {
    if |rows| > 0 {
      var init := rows[..|rows| - 1];
      assert forall j :: 0 <= j < |init| ==> init[j] == rows[j];
      NonNegativeSum(init);
    }
  }

  /** The day total splits over any division of the rows, so the order of
      the additions in the reduce does not matter. */
  lemma {:induction false} SumTotalsConcat(a: seq<PredictionRow>, b: seq<PredictionRow>)
    ensures SumTotals(a + b) == SumTotals(a) + SumTotals(b)
    decreases |b|
  {
    if |b| > 0 {
      var init := b[..|b| - 1];
      assert (a + b)[..|a + b| - 1] == a + init;
      SumTotalsConcat(a, init);
    } else {
      assert a + b == a;
    }
  }
}

=== FILE: chart.dfy ===
/** The bar-chart geometry of the prediction view (PredictionsView.tsx):
    canvas and padding constants, the adaptive gap and bar width, bar
    positions and heights, and which bars get an x-axis label. Lengths are
    integers where the source floors them and reals where it does not. */
module Chart {
  import opened Ints

  const ChartWidth: int := 700
  const ChartHeight: int := 220
  const PadTop: int := 12
  const PadRight: int := 12
  const PadBottom: int := 28
  const PadLeft: int := 40

  /** Width of the plotting area: 648. */
  const InnerW: int := ChartWidth - PadLeft - PadRight

  /** Height of the plotting area: 180. */
  const InnerH: int := ChartHeight - PadTop - PadBottom

  /** A product with a positive factor is positive only if the other factor
      is. */
  lemma MulSign(x: int, m: int)
    requires m > 0 && x * m > 0
    ensures x > 0
  {
  }

  /** Any `q` with `q * m <= a` is at most `a / m`; Dafny's division rounds
      toward negative infinity for a positive divisor, like `Math.floor`. */
  lemma DivLowerBound(a: int, m: int, q: int)
    requires m > 0 && q * m <= a
    ensures q <= a / m
  {
    var r := a / m;
    assert a < m * r + m;
    assert (r + 1 - q) * m > 0 by {
      assert (r + 1 - q) * m == m * r + m - q * m;
    }
    MulSign(r + 1 - q, m);
  }

  /** Dividing by more gives no more. */
  lemma DivAntitone(a: int, m1: int, m2: int)
    requires a >= 0 && 0 < m1 <= m2
    ensures a / m2 <= a / m1
  {
    var q := a / m2;
    assert q >= 0;
    assert q * m1 <= q * m2 by {
      assert q * (m2 - m1) >= 0;
    }
    assert q * m2 <= a;
    DivLowerBound(a, m1, q);
  }

  /** The floored quotient never overshoots: `m * (a / m) <= a < m * (a / m + 1)`. */
  lemma DivBracket(a: int, m: int)
    requires m > 0
    ensures m * (a / m) <= a < m * (a / m) + m
  {
  }

  /** `gap = min(6, max(2, floor(innerW / max(40, count * 6))))`. */
  function Gap(count: nat): (g: int)
    ensures 2 <= g <= 6
  {
    Min(6, Max(2, InnerW / Max(40, count * 6)))
  }

  /** The gap is 6 up to 18 bars and 2 from 37 bars on. */
  lemma GapExtremes(count: nat)
    ensures count <= 18 ==> Gap(count) == 6
    ensures count >= 37 ==> Gap(count) == 2
  {
    var m := Max(40, count * 6);
    if count <= 18 {
      DivLowerBound(InnerW, m, 6);
    }
    if count >= 37 {
      DivBracket(InnerW, m);
      assert InnerW / m < 3;
    }
  }

  /** More bars never widen the gap. */
  lemma GapAntitone(c1: nat, c2: nat)
    requires c1 <= c2
    ensures Gap(c2) <= Gap(c1)
  {
    DivAntitone(InnerW, Max(40, c1 * 6), Max(40, c2 * 6));
  }

  /** The width the bars would get if they shared the inner width exactly. */
  function FloorWidth(count: nat): int
    requires count >= 1
  {
    (InnerW - Gap(count) * (count - 1)) / count
  }

  /** `barW = max(6, floor((innerW - gap * (count - 1)) / count))`. */
  function BarWidth(count: nat): (w: int)
    requires count >= 1
    ensures w >= 6
  {
    Max(6, FloorWidth(count))
  }

  /** Total horizontal extent of `count` bars and the gaps between them. */
  function Span(count: nat): int
    requires count >= 1
  {
    count * BarWidth(count) + Gap(count) * (count - 1)
  }

  /** When the shared width is at least the minimum, the bars and gaps fit in
      the inner width, and one pixel more per bar would not. */
  lemma BarsFitWhenWide(count: nat)
    requires count >= 1 && FloorWidth(count) >= 6
    ensures Span(count) <= InnerW
    ensures count * (BarWidth(count) + 1) + Gap(count) * (count - 1) > InnerW
  {
    DivBracket(InnerW - Gap(count) * (count - 1), count);
  }

  /** Up to 81 bars the shared width never drops below the minimum of 6. */
  lemma WideUpTo81(count: nat)
    requires 1 <= count <= 81
    ensures FloorWidth(count) >= 6
  {
    var g := Gap(count);
    var n := InnerW - g * (count - 1);
    GapsUpTo81(count, g);
    DivLowerBound(n, count, 6);
  }

  /** The gaps of up to 81 bars leave at least 6 pixels per bar. */
  lemma GapsUpTo81(count: nat, g: int)
    requires 1 <= count <= 81 && g == Gap(count)
    ensures 6 * count <= InnerW - g * (count - 1)
  {
    GapExtremes(count);
    if count <= 36 {
      assert g * (count - 1) <= 6 * (count - 1) by {
        assert (6 - g) * (count - 1) >= 0;
      }
    }
  }

  /** From 82 bars on the minimum width applies and the bars and gaps overrun
      the inner width. */
  lemma NarrowFrom82(count: nat)
    requires count >= 82
    ensures BarWidth(count) == 6
    ensures Span(count) > InnerW
  {
    GapExtremes(count);
    var n := InnerW - 2 * (count - 1);
    assert n < 6 * count;
    DivBracket(n, count);
    MulSign(6 - n / count, count);
  }

  /** The bars fit in the inner width exactly when there are at most 81 of
      them; from 82 on the minimum width of 6 pushes them past it. */
  lemma BarsFitIff(count: nat)
    requires count >= 1
    ensures Span(count) <= InnerW <==> count <= 81
  {
    if count <= 81 {
      WideUpTo81(count);
      BarsFitWhenWide(count);
    } else {
      NarrowFrom82(count);
    }
  }

  /** Left edge of bar `i`: `padding.left + i * (barW + gap)`. */
  function BarX(i: nat, barW: int, gap: int): int {
    PadLeft + i * (barW + gap)
  }

  /** Bars are laid out left to right, and between a bar's right edge and the
      next bar's left edge there is at least one gap. */
  lemma BarsOrdered(i: nat, j: nat, barW: int, gap: int)
    requires i < j && barW >= 6 && gap >= 2
    ensures BarX(i, barW, gap) < BarX(j, barW, gap)
    ensures BarX(i, barW, gap) + barW + gap <= BarX(j, barW, gap)
  {
    assert (j - i) * (barW + gap) >= barW + gap by {
      assert (j - i - 1) * (barW + gap) >= 0;
    }
  }

  /** The next bar starts a bar width plus a gap to the right. */
  lemma NextBarX(i: nat, barW: int, gap: int)
    ensures BarX(i + 1, barW, gap) == BarX(i, barW, gap) + barW + gap
  {
    assert (i + 1) * (barW + gap) == i * (barW + gap) + barW + gap;
  }

  /** When the bars fit, the last one ends inside the plotting area. */
  lemma LastBarInside(count: nat)
    requires 1 <= count <= 81
    ensures BarX(count - 1, BarWidth(count), Gap(count)) + BarWidth(count) <= PadLeft + InnerW
  {
    BarsFitIff(count);
    LastBarEnd(count, BarWidth(count), Gap(count));
  }

  /** The right edge of the last of `count` bars lies one span from the left
      padding. */
  lemma LastBarEnd(count: nat, w: int, g: int)
    requires count >= 1
    ensures BarX(count - 1, w, g) + w == PadLeft + count * w + g * (count - 1)
  {
    var c := count - 1;
    assert c * (w + g) == c * w + c * g;
    assert count * w == c * w + w;
  }

  /** Height of a bar before the one-pixel floor:
      `total / maxTotal * innerH`. */
  function BarHeight(total: real, maxTotal: real): real
    requires maxTotal > 0.0
  {
    total / maxTotal * InnerH as real
  }

  /** `Math.max(1, barHeight)`, the height actually drawn. */
  function DrawnHeight(h: real): (d: real)
    ensures d >= 1.0 && d >= h
    ensures d == h || d == 1.0
  {
    if h > 1.0 then h else 1.0
  }

  /** Top edge of a bar: `padding.top + (innerH - barHeight)`. */
  function BarTop(total: real, maxTotal: real): real
    requires maxTotal > 0.0
  {
    PadTop as real + (InnerH as real - BarHeight(total, maxTotal))
  }

  /** A bar is anchored at the plot's base: it ends there when its computed
      height is at least 1, and a shorter bar, raised to one pixel, hangs
      below the base by the difference. */
  lemma BarBottom(total: real, maxTotal: real)
    requires maxTotal > 0.0
    ensures BarHeight(total, maxTotal) >= 1.0 ==>
      BarTop(total, maxTotal) + DrawnHeight(BarHeight(total, maxTotal)) == (PadTop + InnerH) as real
    ensures BarHeight(total, maxTotal) < 1.0 ==>
      BarTop(total, maxTotal) + DrawnHeight(BarHeight(total, maxTotal))
        == (PadTop + InnerH) as real + (1.0 - BarHeight(total, maxTotal))
  {
  }

  /** The total that sets the scale is drawn over the plot's full height. */
  lemma FullHeight(t: real)
    requires t >= 1.0
    ensures DrawnHeight(BarHeight(t, t)) == InnerH as real
    ensures BarTop(t, t) == PadTop as real
  {
    assert t / t == 1.0;
  }

  /** A total between 0 and the scale maximum is drawn between 1 and
      `innerH` high, with its top inside the plotting area. */
  lemma HeightBounds(total: real, maxTotal: real)
    requires maxTotal > 0.0 && 0.0 <= total <= maxTotal
    ensures 0.0 <= BarHeight(total, maxTotal) <= InnerH as real
    ensures 1.0 <= DrawnHeight(BarHeight(total, maxTotal)) <= InnerH as real
    ensures PadTop as real <= BarTop(total, maxTotal) <= (PadTop + InnerH) as real
  {
    assert total / maxTotal <= 1.0 by {
      assert total / maxTotal * maxTotal == total;
    }
  }

  /** A larger total never gets a shorter bar. */
  lemma HeightMonotone(t1: real, t2: real, maxTotal: real)
    requires maxTotal > 0.0 && t1 <= t2
    ensures BarHeight(t1, maxTotal) <= BarHeight(t2, maxTotal)
    ensures DrawnHeight(BarHeight(t1, maxTotal)) <= DrawnHeight(BarHeight(t2, maxTotal))
  {
    assert t1 / maxTotal <= t2 / maxTotal by {
      assert (t2 - t1) / maxTotal >= 0.0;
      assert t2 / maxTotal - t1 / maxTotal == (t2 - t1) / maxTotal;
    }
  }

  /** `Math.ceil(count / 20)` for a natural count. */
  function CeilDiv20(count: nat): (k: nat)
    ensures count <= 20 * k
    ensures count >= 1 ==> 20 * (k - 1) < count
  {
    (count + 19) / 20
  }

  /** Whether bar `i` gets an x-axis label: always up to 20 bars, otherwise
      only every `ceil(count / 20)`-th bar starting with the first. */
  predicate ShowLabel(count: nat, i: nat) {
    count <= 20 || i % CeilDiv20(count) == 0
  }

  /** The labelled indices among the first `n` bars, in increasing order. */
  function LabelsBelow(count: nat, n: nat): (ls: seq<nat>)
    ensures forall k :: 0 <= k < |ls| ==> ls[k] < n && ShowLabel(count, ls[k])
    ensures forall i :: 0 <= i < n && ShowLabel(count, i) ==> i in ls
    ensures forall a, b :: 0 <= a < b < |ls| ==> ls[a] < ls[b]
  {
    if n == 0 then []
    else if ShowLabel(count, n - 1) then LabelsBelow(count, n - 1) + [n - 1]
    else LabelsBelow(count, n - 1)
  }

  /** The labelled bar indices of a chart with `count` bars. */
  function XLabels(count: nat): seq<nat> {
    LabelsBelow(count, count)
  }

  /** Up to 20 bars every bar is labelled. */
  lemma AllLabelledWhenFew(count: nat)
    requires count <= 20
    ensures XLabels(count) == seq(count, i => i)
  {
    var ls := XLabels(count);
    LabelsBelowAll(count, count);
  }

  /** Without thinning, the labels below `n` are `0, 1, ..., n - 1`. */
  lemma {:induction false} LabelsBelowAll(count: nat, n: nat)
    requires count <= 20
    ensures LabelsBelow(count, n) == seq(n, i => i)
  {
    if n > 0 {
      LabelsBelowAll(count, n - 1);
    }
  }

  /** Distinct multiples of `k` lie at least `k` apart. */
  lemma MultiplesApart(a: nat, b: nat, k: nat)
    requires k >= 1 && a < b && a % k == 0 && b % k == 0
    ensures a + k <= b
  {
    var qa := a / k;
    var qb := b / k;
    assert a == k * qa && b == k * qb;
    assert (qb - qa) * k > 0 by {
      assert (qb - qa) * k == b - a;
    }
    MulSign(qb - qa, k);
    assert (qb - qa - 1) * k >= 0;
  }

  /** In an increasing run of multiples of `k` from 0, entry `m` is at least
      `m * k`. */
  lemma {:induction false} MultiplesGrow(ls: seq<nat>, k: nat, m: nat)
    requires k >= 1 && m < |ls|
    requires forall a :: 0 <= a < |ls| ==> ls[a] % k == 0
    requires forall a, b :: 0 <= a < b < |ls| ==> ls[a] < ls[b]
    ensures ls[m] >= m * k
  {
    if m > 0 {
      MultiplesGrow(ls, k, m - 1);
      MultiplesApart(ls[m - 1], ls[m], k);
    }
  }

  /** Index 0 is always labelled and never more than 20 labels are drawn. */
  lemma LabelsBounded(count: nat)
    requires count >= 1
    ensures 0 in XLabels(count)
    ensures |XLabels(count)| <= 20
  {
    var ls := XLabels(count);
    assert ShowLabel(count, 0);
    if count <= 20 {
      AllLabelledWhenFew(count);
    } else {
      var k := CeilDiv20(count);
      if |ls| > 20 {
        MultiplesGrow(ls, k, 20);
      }
    }
  }
}

=== FILE: columns.dfy ===
/** The schema check of the upload panel (`hasRequiredColumns` with the two
    required-column lists in InteractionBlock.tsx). */
module Columns {
  import opened Wrappers
  import opened Text
  import opened Csv
  import Seqs

  /** Columns the "today" table must have, in display order. */
  const RequiredToday: seq<string> := [
    "first_category_id", "second_category_id", "third_category_id",
    "discount", "holiday_flag", "activity_flag", "precpt",
    "avg_temperature", "avg_humidity", "avg_wind_level",
    "stock_hour6_22_cnt", "hours_sale_today"
  ]

  /** Columns the "tomorrow" table must have, in display order. */
  const RequiredTomorrow: seq<string> := [
    "discount", "holiday_flag", "activity_flag", "precpt",
    "avg_temperature", "avg_humidity", "avg_wind_level",
    "dow_tomorrow", "month_tomorrow", "is_weekend"
  ]

  /** The "today" list asks for 12 columns and the "tomorrow" list for 10,
      each without repetition; the seven promotion and weather columns from
      `discount` to `avg_wind_level` open the "tomorrow" list in the order
      the "today" list has them. */
  lemma RequiredLists()
    ensures |RequiredToday| == 12 && |RequiredTomorrow| == 10
    ensures forall a, b :: 0 <= a < b < |RequiredToday| ==> RequiredToday[a] != RequiredToday[b]
    ensures forall a, b :: 0 <= a < b < |RequiredTomorrow| ==> RequiredTomorrow[a] != RequiredTomorrow[b]
    ensures RequiredToday[3..10] == RequiredTomorrow[..7]
  {
  }

  /** Outcome of the check: whether every required column is present, and
      the required columns that are not. */
  datatype ColumnsCheck = ColumnsCheck(ok: bool, missing: seq<string>)

  /** The trimmed keys of a row (`Object.keys(row).map((k) => k.trim())`). */
  function TrimmedKeys(row: Row): set<string> {
    set k | k in row.Keys :: Trim(k)
  }

  /** The required names not among `keys`, in the order they are required. */
  function MissingColumns(required: seq<string>, keys: set<string>): (missing: seq<string>)
    ensures forall x :: x in missing <==> x in required && x !in keys
    ensures Seqs.IsSubsequence(missing, required)
    ensures missing == [] <==> forall x :: x in required ==> x in keys
  {
    Seqs.FilterEmpty(required, (r: string) => r !in keys);
    Seqs.Filter(required, (r: string) => r !in keys)
  }

  /** `hasRequiredColumns`. An absent or empty table misses every required
      column; otherwise the first row's trimmed keys decide. */
  function HasRequiredColumns(rows: Option<Table>, required: seq<string>): (c: ColumnsCheck)
    ensures (rows.None? || |rows.value| == 0) ==> c == ColumnsCheck(false, required)
    ensures rows.Some? && |rows.value| > 0 ==>
      && (forall x :: x in c.missing <==> x in required && x !in TrimmedKeys(rows.value[0]))
      && Seqs.IsSubsequence(c.missing, required)
      && (c.ok <==> c.missing == [])
    ensures c.ok <==> rows.Some? && |rows.value| > 0 && forall x :: x in required ==> x in TrimmedKeys(rows.value[0])
  {
    if rows.None? || |rows.value| == 0 then ColumnsCheck(false, required)
    else
      var missing := MissingColumns(required, TrimmedKeys(rows.value[0]));
      ColumnsCheck(|missing| == 0, missing)
  }

  /** A passing check implies a present, non-empty table. */
  lemma OkImpliesRows(rows: Option<Table>, required: seq<string>)
    requires HasRequiredColumns(rows, required).ok
    ensures rows.Some? && |rows.value| > 0
  {
  }

  /** Each missing column is reported once per time it is required, in the
      required order: the missing list is exactly the required list with the
      present names struck out, and it splits over any division of the
      required list. */
  lemma {:induction false} MissingSplits(a: seq<string>, b: seq<string>, keys: set<string>)
    ensures MissingColumns(a + b, keys) == MissingColumns(a, keys) + MissingColumns(b, keys)
  {
    Seqs.FilterConcat(a, b, (r: string) => r !in keys);
  }

  /** For a parsed CSV table the check compares the required list against
      the header names themselves: they are already trimmed. */
  lemma CsvCheck(text: string, required: seq<string>)
    requires |ParseCsv(text)| > 0
    ensures HasRequiredColumns(Some(ParseCsv(text)), required).missing
         == MissingColumns(required, KeySet(HeaderNames(text)))
  {
    var rows := ParseCsv(text);
    var names := HeaderNames(text);
    ParseCsvKeys(text, 0);
    assert rows[0].Keys == KeySet(names);
    forall k | k in rows[0].Keys
      ensures Trim(k) == k
    {
      NamesUpToMembers(names, |names|, k);
      var i :| 0 <= i < |names| && names[i] == k;
      HeaderNamesTrimmed(text, i);
    }
    TrimmedKeysOfTrimmed(rows[0]);
    assert TrimmedKeys(rows[0]) == KeySet(names);
  }

  /** A row whose keys are all trimmed has them as its trimmed keys. */
  lemma TrimmedKeysOfTrimmed(row: Row)
    requires forall k :: k in row.Keys ==> Trim(k) == k
    ensures TrimmedKeys(row) == row.Keys
  {
  }

  /** A "today" table lacking only `discount` among the required columns
      reports exactly `["discount"]` missing and does not pass. */
  lemma MissingDiscount(rows: Table)
    requires |rows| > 0
    requires forall x :: x in RequiredToday && x != "discount" ==> x in TrimmedKeys(rows[0])
    requires "discount" !in TrimmedKeys(rows[0])
    ensures HasRequiredColumns(Some(rows), RequiredToday) == ColumnsCheck(false, ["discount"])
  {
    OnlyDiscountMissing(TrimmedKeys(rows[0]));
  }

  /** When a single required name is absent, it alone is reported. */
  lemma OneMissing(a: seq<string>, name: string, c: seq<string>, keys: set<string>)
    requires forall x :: x in a ==> x in keys
    requires forall x :: x in c ==> x in keys
    requires name !in keys
    ensures MissingColumns(a + [name] + c, keys) == [name]
  {
    MissingSplits(a + [name], c, keys);
    MissingSplits(a, [name], keys);
  }

  /** The missing list of the "today" schema against keys lacking only
      `discount`. */
  lemma OnlyDiscountMissing(keys: set<string>)
    requires forall x :: x in RequiredToday && x != "discount" ==> x in keys
    requires "discount" !in keys
    ensures MissingColumns(RequiredToday, keys) == ["discount"]
  {
    var a := RequiredToday[..3];
    var c := RequiredToday[4..];
    assert RequiredToday == a + ["discount"] + c;
    assert forall x :: x in a ==> x in keys;
    assert forall x :: x in c ==> x in keys;
    OneMissing(a, "discount", c, keys);
  }
}

=== FILE: controller.dfy ===
/** The upload panel's state (InteractionBlock.tsx): one slot per table
    ("today" and "tomorrow") holding the chosen file's name, the file and its
    parsed rows, plus the shared `loading` flag, the single error line and
    the last server response. The asynchronous handlers are split at their
    suspension points: a handler's synchronous prefix is one function and
    the completion that follows the awaited result is another, which takes
    that result as a parameter. */
module Controller {
  import opened Wrappers
  import opened Text
  import opened Csv
  import opened Ingest
  import opened Columns
  import opened Aggregates
  import opened Ints
  import PredictionsView

  /** The two upload roles. */
  datatype Slot = Today | Tomorrow

  /** One slot: the shown file name, the selected file and the parsed rows
      (`None` before a parse has succeeded). */
  datatype SlotState = SlotState(name: Option<string>, file: Option<FileRef>, rows: Option<Table>)

  /** The JSON body of a successful prediction request; only its `rows`
      field is read. */
  datatype Response = Response(rows: Option<seq<PredictionRow>>)

  datatype State = State(today: SlotState, tomorrow: SlotState, loading: bool,
                         error: Option<string>, response: Option<Response>)

  const EmptySlot: SlotState := SlotState(None, None, None)

  /** The panel when it first appears. */
  const Initial: State := State(EmptySlot, EmptySlot, false, None, None)

  const NoTodayMessage: string := "Загрузите файл today (today.xlsx / .csv)."

  const NoTomorrowMessage: string := "Загрузите файл tomorrow (tomorrow.xlsx / .csv)."

  /** Shown next to the upload button while a slot has no file. */
  const NoFileLabel: string := "файл не выбран"

  /** Number of rows in a slot's preview. */
  const PreviewCount: nat := 5

  function Other(slot: Slot): Slot {
    match slot
    case Today => Tomorrow
    case Tomorrow => Today
  }

  function Get(s: State, slot: Slot): SlotState {
    match slot
    case Today => s.today
    case Tomorrow => s.tomorrow
  }

  /** Replaces one slot; the other slot and the shared fields stay. */
  function Put(s: State, slot: Slot, st: SlotState): (t: State)
    ensures Get(t, slot) == st
    ensures Get(t, Other(slot)) == Get(s, Other(slot))
    ensures t.loading == s.loading && t.error == s.error && t.response == s.response
  {
    match slot
    case Today => s.(today := st)
    case Tomorrow => s.(tomorrow := st)
  }

  /** The required columns of a slot. */
  function Required(slot: Slot): seq<string> {
    match slot
    case Today => RequiredToday
    case Tomorrow => RequiredTomorrow
  }

  /** `chkToday` / `chkTomorrow`. */
  function Check(s: State, slot: Slot): ColumnsCheck {
    HasRequiredColumns(Get(s, slot).rows, Required(slot))
  }

  /** The `disabled` expression of the send button, conjunct for conjunct. */
  predicate SubmitDisabled(s: State) {
    || s.loading
    || s.today.rows.None?
    || s.tomorrow.rows.None?
    || |s.today.rows.value| == 0
    || |s.tomorrow.rows.value| == 0
    || !Check(s, Today).ok
    || !Check(s, Tomorrow).ok
  }

  /** The button is enabled exactly when nothing is being sent and both
      column checks pass: a passing check already implies a present,
      non-empty table, so the presence and length tests add nothing. */
  lemma SubmitEnabledIff(s: State)
    ensures !SubmitDisabled(s) <==> !s.loading && Check(s, Today).ok && Check(s, Tomorrow).ok
  {
    if Check(s, Today).ok && Check(s, Tomorrow).ok {
      OkImpliesRows(s.today.rows, RequiredToday);
      OkImpliesRows(s.tomorrow.rows, RequiredTomorrow);
    }
  }

  /** A slot whose table is present, non-empty, and whose first row has
      every column of `required`. */
  predicate SlotReady(st: SlotState, required: seq<string>) {
    && st.rows.Some?
    && |st.rows.value| > 0
    && forall x :: x in required ==> x in TrimmedKeys(st.rows.value[0])
  }

  /** Spelled out: the button is enabled exactly when nothing is being sent
      and both slots hold a non-empty table whose first row has every
      required column. */
  lemma SubmitEnabledMeansColumns(s: State)
    ensures !SubmitDisabled(s) <==>
      !s.loading && SlotReady(s.today, RequiredToday) && SlotReady(s.tomorrow, RequiredTomorrow)
  {
    SubmitEnabledIff(s);
  }

  /** The advisory under the tables: both row counts when both tables are
      present and their lengths differ. */
  function RowCountWarning(s: State): (w: Option<(nat, nat)>)
    ensures w.Some? <==> s.today.rows.Some? && s.tomorrow.rows.Some? && |s.today.rows.value| != |s.tomorrow.rows.value|
    ensures w.Some? ==> w.value == (|s.today.rows.value|, |s.tomorrow.rows.value|)
  {
    if s.today.rows.Some? && s.tomorrow.rows.Some? && |s.today.rows.value| != |s.tomorrow.rows.value|
    then Some((|s.today.rows.value|, |s.tomorrow.rows.value|))
    else None
  }

  /** Rows after the first do not affect the column check. */
  lemma CheckIgnoresLaterRows(rows: Table, extra: Table, required: seq<string>)
    requires |rows| > 0
    ensures HasRequiredColumns(Some(rows + extra), required) == HasRequiredColumns(Some(rows), required)
  {
    assert (rows + extra)[0] == rows[0];
  }

  /** The advisory never blocks sending: adding rows after the first to one
      table changes the row counts, possibly raising the advisory, but leaves
      an enabled button enabled. */
  lemma WarningDoesNotBlock(s: State, slot: Slot, extra: Table)
    requires !SubmitDisabled(s)
    ensures Get(s, slot).rows.Some?
    ensures var st := Get(s, slot);
      !SubmitDisabled(Put(s, slot, st.(rows := Some(st.rows.value + extra))))
  {
    SubmitEnabledIff(s);
    var st := Get(s, slot);
    var t := Put(s, slot, st.(rows := Some(st.rows.value + extra)));
    CheckIgnoresLaterRows(st.rows.value, extra, Required(slot));
    assert Check(t, slot) == Check(s, slot);
    assert Check(t, Other(slot)) == Check(s, Other(slot));
    match slot {
      case Today => assert t.tomorrow == s.tomorrow;
      case Tomorrow => assert t.today == s.today;
    }
    SubmitEnabledIff(t);
  }

  /** Two tables that pass their checks but differ in length: the advisory
      shows while the button stays enabled. */
  lemma WarningWithEnabledButton(s: State)
    requires !SubmitDisabled(s) && |s.today.rows.value| == |s.tomorrow.rows.value|
    ensures var t := Put(s, Today, s.today.(rows := Some(s.today.rows.value + [s.today.rows.value[0]])));
      RowCountWarning(t).Some? && !SubmitDisabled(t)
  {
    WarningDoesNotBlock(s, Today, [s.today.rows.value[0]]);
  }

  /** `todayPreview` / `tomorrowPreview`: the first rows of a table, none
      when there is no table. */
  function Preview(rows: Option<Table>): (p: Table)
    ensures rows.None? ==> p == []
    ensures rows.Some? ==> |p| == Min(PreviewCount, |rows.value|)
    ensures rows.Some? ==> p + rows.value[|p|..] == rows.value
  {
    match rows
    case None => []
    case Some(t) =>
      var p := t[..Min(PreviewCount, |t|)];
      assert p + t[|p|..] == t;
      p
  }

  /** The red "missing" line under a slot: shown when the check fails and a
      table is present, listing the missing columns. */
  function MissingAlert(s: State, slot: Slot): (a: Option<seq<string>>)
    ensures a.Some? <==> Get(s, slot).rows.Some? && !Check(s, slot).ok
    ensures a.Some? ==> forall x :: x in a.value ==> x in Required(slot)
    ensures Get(s, slot).rows.Some? && |Get(s, slot).rows.value| > 0 && !Check(s, slot).ok ==>
      && a.Some?
      && forall x :: x in a.value <==> x in Required(slot) && x !in TrimmedKeys(Get(s, slot).rows.value[0])
  {
    var chk := Check(s, slot);
    if !chk.ok && Get(s, slot).rows.Some? then Some(chk.missing) else None
  }

  /** No alert before a table is parsed; a parsed but empty table reports
      every required column missing, in order. */
  lemma MissingAlertCases(s: State, slot: Slot)
    ensures Get(s, slot).rows.None? ==> MissingAlert(s, slot).None?
    ensures Get(s, slot).rows == Some([]) ==> MissingAlert(s, slot) == Some(Required(slot))
    ensures Get(s, slot).rows.Some? && Check(s, slot).ok ==> MissingAlert(s, slot).None?
  {
  }

  /** The file-name line of a slot. */
  function NameLabel(s: State, slot: Slot): string {
    Get(s, slot).name.GetOr(NoFileLabel)
  }

  /** Before any selection the name line reads "no file chosen"; after a
      selection it shows the chosen file's name, or "no file chosen" again
      when the dialog was dismissed. */
  lemma NameLabelShown(s: State, slot: Slot, f: Option<FileRef>)
    ensures NameLabel(Initial, slot) == NoFileLabel
    ensures NameLabel(SelectFile(s, slot, f), slot) == if f.Some? then f.value.name else NoFileLabel
  {
  }

  /** The name a selection records: the file's own name, or none when the
      dialog was dismissed. */
  function NameOf(f: Option<FileRef>): Option<string> {
    match f
    case None => None
    case Some(ff) => Some(ff.name)
  }

  /** The synchronous part of a file-change handler: clear the shared error
      and response, record the file and its name, and forget the slot's rows
      until the parse completes. */
  function BeginSelect(s: State, slot: Slot, f: Option<FileRef>): (t: State)
    ensures t.error.None? && t.response.None? && t.loading == s.loading
    ensures Get(t, slot).file == f && Get(t, slot).rows.None?
    ensures Get(t, Other(slot)) == Get(s, Other(slot))
  {
    Put(s, slot, SlotState(NameOf(f), f, None)).(error := None, response := None)
  }

  /** The completion of a file-change handler: a parsed table becomes the
      slot's rows, a failure becomes the shared error line. The result is
      applied to the slot whatever file it holds by then. */
  function FinishParse(s: State, slot: Slot, outcome: Result<Table, ParseError>): (t: State)
    ensures outcome.Ok? ==> Get(t, slot).rows == Some(outcome.value) && t.error == s.error
    ensures outcome.Err? ==> Get(t, slot) == Get(s, slot) && t.error == Some(ErrorMessage(outcome.error))
    ensures Get(t, slot).file == Get(s, slot).file && Get(t, slot).name == Get(s, slot).name
    ensures Get(t, Other(slot)) == Get(s, Other(slot))
    ensures t.loading == s.loading && t.response == s.response
  {
    match outcome
    case Ok(rows) => Put(s, slot, Get(s, slot).(rows := Some(rows)))
    case Err(e) => s.(error := Some(ErrorMessage(e)))
  }

  /** A whole file-change handler with no other event in between. */
  function SelectFile(s: State, slot: Slot, f: Option<FileRef>): (t: State)
    ensures Get(t, slot).file == f && Get(t, slot).name == NameOf(f)
    ensures Get(t, Other(slot)) == Get(s, Other(slot))
    ensures t.loading == s.loading && t.response.None?
  {
    var begun := BeginSelect(s, slot, f);
    match f
    case None => begun
    case Some(ff) => FinishParse(begun, slot, ParseFileToRows(ff))
  }

  /** What a selection leaves behind: the parsed rows when the parse
      succeeds, otherwise no rows and the failure's message as the only
      error line. */
  lemma SelectOutcome(s: State, slot: Slot, f: Option<FileRef>)
    ensures var t := SelectFile(s, slot, f);
      && (Get(t, slot).rows.Some? <==> f.Some? && ParseFileToRows(f.value).Ok?)
      && (Get(t, slot).rows.Some? ==> Get(t, slot).rows.value == ParseFileToRows(f.value).value)
      && (t.error.Some? <==> f.Some? && ParseFileToRows(f.value).Err?)
      && (t.error.Some? ==> t.error.value == ErrorMessage(ParseFileToRows(f.value).error))
  {
  }

  /** A file with an unsupported suffix leaves its slot without rows, shows
      the format message and keeps the button disabled. */
  lemma UnsupportedSelection(s: State, slot: Slot, f: FileRef)
    requires KindOf(f.name) == Unsupported
    ensures var t := SelectFile(s, slot, Some(f));
      Get(t, slot).rows.None? && t.error == Some(UnsupportedMessage) && SubmitDisabled(t)
  {
    var t := SelectFile(s, slot, Some(f));
    match slot {
      case Today => assert t.today.rows.None?;
      case Tomorrow => assert t.tomorrow.rows.None?;
    }
  }

  /** A CSV file always parses: its selection never shows an error and
      leaves the slot holding the CSV parser's table. */
  lemma CsvSelection(s: State, slot: Slot, f: FileRef)
    requires KindOf(f.name) == CsvText
    ensures var t := SelectFile(s, slot, Some(f));
      Get(t, slot).rows == Some(ParseCsv(f.text)) && t.error.None?
  {
  }

  /** Every slot's name matches its file, and rows only exist for a
      selected file: the rows of that file. */
  predicate SlotCoherent(st: SlotState) {
    && st.name == NameOf(st.file)
    && (st.rows.Some? ==> st.file.Some? && ParseFileToRows(st.file.value) == Ok(st.rows.value))
  }

  predicate Coherent(s: State) {
    SlotCoherent(s.today) && SlotCoherent(s.tomorrow)
  }

  lemma InitialCoherent()
    ensures Coherent(Initial) && SubmitDisabled(Initial) && !Initial.loading
  {
  }

  /** Whole selections keep every slot's rows those of its current file. */
  lemma SelectKeepsCoherent(s: State, slot: Slot, f: Option<FileRef>)
    requires Coherent(s)
    ensures Coherent(SelectFile(s, slot, f))
  {
    var t := SelectFile(s, slot, f);
    assert SlotCoherent(Get(s, Other(slot)));
    assert SlotCoherent(Get(t, slot));
    match slot {
      case Today => assert t.tomorrow == s.tomorrow;
      case Tomorrow => assert t.today == s.today;
    }
  }

  /** Without a guard, a parse that completes after a newer selection on the
      same slot installs the older file's rows next to the newer file: the
      slot is no longer coherent. */
  lemma StaleParseOverwrites(s: State, slot: Slot, f1: FileRef, f2: FileRef, r: Table)
    requires ParseFileToRows(f1) == Ok(r) && ParseFileToRows(f2) != Ok(r)
    ensures var t := FinishParse(BeginSelect(BeginSelect(s, slot, Some(f1)), slot, Some(f2)), slot, Ok(r));
      Get(t, slot).file == Some(f2) && Get(t, slot).rows == Some(r) && !SlotCoherent(Get(t, slot))
  {
  }

  /** The two parts of the multipart request, `today_file` and
      `tomorrow_file`. */
  datatype Request = Request(todayFile: FileRef, tomorrowFile: FileRef)

  /** A state together with the request it started, if any. */
  datatype Sent = Sent(state: State, request: Option<Request>)

  /** The synchronous part of `handleSend`: clear the error and response,
      then either report the first missing file or start loading and send
      both files. */
  function BeginSend(s: State): (r: Sent)
    ensures r.state.today == s.today && r.state.tomorrow == s.tomorrow && r.state.response.None?
    ensures r.request.Some? <==> s.today.file.Some? && s.tomorrow.file.Some?
    ensures r.request.Some? ==>
      && r.request.value == Request(s.today.file.value, s.tomorrow.file.value)
      && r.state.loading && r.state.error.None?
    ensures s.today.file.None? ==> r.state.error == Some(NoTodayMessage) && r.state.loading == s.loading
    ensures s.today.file.Some? && s.tomorrow.file.None? ==>
      r.state.error == Some(NoTomorrowMessage) && r.state.loading == s.loading
  {
    var cleared := s.(error := None, response := None);
    if s.today.file.None? then Sent(cleared.(error := Some(NoTodayMessage)), None)
    else if s.tomorrow.file.None? then Sent(cleared.(error := Some(NoTomorrowMessage)), None)
    else Sent(cleared.(loading := true), Some(Request(s.today.file.value, s.tomorrow.file.value)))
  }

  /** How the request ended: a parsed JSON body, a non-success status with
      the body text, or an exception with its message (network failure or a
      body that is not JSON). */
  datatype Transport =
    | Delivered(body: Response)
    | HttpFailure(status: nat, text: string)
    | Failed(message: string)

  const ServerErrorPrefix: string := "Server error: "

  /** `Server error: ${res.status} ${txt}`. */
  function ServerErrorMessage(status: nat, text: string): (m: string)
    ensures |m| > |ServerErrorPrefix| && m[..|ServerErrorPrefix|] == ServerErrorPrefix
    ensures |m| >= |ServerErrorPrefix| + 2 + |text| && m[|m| - |text| - 1..] == " " + text
    ensures var digits := m[|ServerErrorPrefix|..|m| - |text| - 1];
      AllDigits(digits) && DigitsValue(digits) == status
  {
    var digits := NatToString(status);
    var m := ServerErrorPrefix + digits + " " + text;
    assert m[|ServerErrorPrefix|..|m| - |text| - 1] == digits;
    assert m[|m| - |text| - 1..] == " " + text;
    NatToStringRoundTrip(status);
    m
  }

  /** The error line a failed request leaves. */
  function TransportMessage(o: Transport): string
    requires !o.Delivered?
  {
    match o
    case HttpFailure(status, text) => ServerErrorMessage(status, text)
    case Failed(message) => message
  }

  /** The completion of `handleSend`: the body becomes the response, a
      failure becomes the error line, and loading ends either way. */
  function FinishSend(s: State, o: Transport): (t: State)
    ensures !t.loading && t.today == s.today && t.tomorrow == s.tomorrow
    ensures o.Delivered? ==> t.response == Some(o.body) && t.error == s.error
    ensures !o.Delivered? ==> t.error == Some(TransportMessage(o)) && t.response == s.response
  {
    match o
    case Delivered(body) => s.(response := Some(body), loading := false)
    case _ => s.(error := Some(TransportMessage(o)), loading := false)
  }

  /** A click on the send button: nothing happens while it is disabled. */
  function Click(s: State): (r: Sent)
    ensures SubmitDisabled(s) ==> r == Sent(s, None)
  {
    if SubmitDisabled(s) then Sent(s, None) else BeginSend(s)
  }

  /** An enabled click keeps both slots and hides the response; it sends
      both files exactly when both are chosen, and otherwise reports the
      first missing file without loading, which a state whose rows outlived
      its file can reach. */
  lemma EnabledClickOutcome(s: State)
    requires !SubmitDisabled(s)
    ensures var r := Click(s);
      && r.state.today == s.today && r.state.tomorrow == s.tomorrow && r.state.response.None?
      && (r.request.Some? <==> s.today.file.Some? && s.tomorrow.file.Some?)
    ensures var r := Click(s); r.request.Some? ==>
      && r.request.value == Request(s.today.file.value, s.tomorrow.file.value)
      && r.state.loading && r.state.error.None?
    ensures var r := Click(s); r.request.None? ==>
      && !r.state.loading
      && r.state.error == Some(if s.today.file.None? then NoTodayMessage else NoTomorrowMessage)
  {
  }

  /** An enabled click in a coherent state always sends both files and
      disables the button until the request ends. */
  lemma EnabledClickSends(s: State)
    requires Coherent(s) && !SubmitDisabled(s)
    ensures Click(s).request == Some(Request(s.today.file.value, s.tomorrow.file.value))
    ensures Click(s).state.loading && SubmitDisabled(Click(s).state)
  {
  }

  /** Only one request is in flight: a click while loading does nothing. */
  lemma NoSecondRequest(s: State)
    requires s.loading
    ensures Click(s) == Sent(s, None)
  {
  }

  /** Whatever the request's outcome, the button is enabled again for a
      retry, with the same tables. */
  lemma SendIsRetryable(s: State, o: Transport)
    requires !SubmitDisabled(s)
    ensures var t := FinishSend(Click(s).state, o);
      !SubmitDisabled(t) && t.today == s.today && t.tomorrow == s.tomorrow
  {
    var t := FinishSend(Click(s).state, o);
    SubmitEnabledIff(s);
    assert Check(t, Today) == Check(s, Today);
    assert Check(t, Tomorrow) == Check(s, Tomorrow);
    SubmitEnabledIff(t);
  }

  /** Sending keeps the slots coherent. */
  lemma SendKeepsCoherent(s: State, o: Transport)
    requires Coherent(s)
    ensures Coherent(Click(s).state) && Coherent(FinishSend(Click(s).state, o))
  {
  }

  /** The server-error line identifies the status: two statuses with the
      same body text give different lines. */
  lemma {:induction false} ServerErrorIdentifiesStatus(m: nat, n: nat, text: string)
    requires ServerErrorMessage(m, text) == ServerErrorMessage(n, text)
    ensures m == n
  {
    var a := NatToString(m);
    var b := NatToString(n);
    var p := |ServerErrorPrefix|;
    var msg := ServerErrorMessage(m, text);
    assert msg == ServerErrorPrefix + a + " " + text;
    assert msg == ServerErrorPrefix + b + " " + text;
    assert forall k :: 0 <= k < |a| ==> msg[p + k] == a[k];
    assert forall k :: 0 <= k < |b| ==> msg[p + k] == b[k];
    assert msg[p + |a|] == ' ' && msg[p + |b|] == ' ';
    assert !IsDigit(' ');
    assert |a| == |b|;
    assert a == b;
    NatToStringRoundTrip(m);
    NatToStringRoundTrip(n);
  }

  /** What the panel under the button shows. */
  datatype Panel = Placeholder | Predictions(view: PredictionsView.View)

  /** The prediction view when the response carries `rows`, otherwise the
      placeholder text. */
  function ResponsePanel(s: State): (p: Panel)
    ensures p.Predictions? <==> s.response.Some? && s.response.value.rows.Some?
  {
    if s.response.Some? && s.response.value.rows.Some?
    then Predictions(PredictionsView.Render(s.response.value.rows.value))
    else Placeholder
  }

  /** A delivered body with rows shows the prediction view of those rows, and
      an empty list shows its "no predictions" indicator, not the
      placeholder. */
  lemma DeliveredRowsShown(s: State, rows: seq<PredictionRow>)
    ensures var t := FinishSend(s, Delivered(Response(Some(rows))));
      ResponsePanel(t) == Predictions(PredictionsView.Render(rows))
    ensures rows == [] ==> ResponsePanel(FinishSend(s, Delivered(Response(Some(rows))))) == Predictions(PredictionsView.NoPredictions)
  {
  }

  /** Choosing a new file hides the previous prediction. */
  lemma SelectHidesResponse(s: State, slot: Slot, f: Option<FileRef>)
    ensures ResponsePanel(SelectFile(s, slot, f)) == Placeholder
  {
  }
}

=== FILE: csv.dfy ===
/** The line- and comma-splitting CSV reader of the upload panel
    (`parseCSV` in InteractionBlock.tsx). It trims the whole text, splits it
    into lines, trims every line and drops the empty ones; the first line is
    the header and every later line becomes one row keyed by header name. */
module Csv {
  import opened Text
  import Seqs

  /** A cell of an uploaded table. CSV text only ever yields `Str` and `Null`;
      spreadsheets may also deliver numbers and booleans. */
  datatype Cell = Null | Str(text: string) | Num(number: real) | Bool(flag: bool)

  /** One record: column name to cell (a JavaScript object). */
  type Row = map<string, Cell>

  type Table = seq<Row>

  /** Each string trimmed (`.map((x) => x.trim())`). */
  function TrimAll(xs: seq<string>): (ys: seq<string>)
    ensures |ys| == |xs|
    ensures forall k :: 0 <= k < |xs| ==> ys[k] == Trim(xs[k])
  {
    seq(|xs|, k requires 0 <= k < |xs| => Trim(xs[k]))
  }

  /** The non-empty, trimmed lines of `text`, in order. */
  function ContentLines(text: string): (lines: seq<string>)
    ensures forall k :: 0 <= k < |lines| ==> lines[k] != "" && Trim(lines[k]) == lines[k]
  {
    var trimmed := TrimAll(SplitLines(Trim(text)));
    TrimAllTrimmed(SplitLines(Trim(text)));
    KeptLinesTrimmed(trimmed);
    Seqs.Filter(trimmed, NonBlank)
  }

  /** A line counts as content when it is not empty. */
  predicate NonBlank(l: string) {
    l != ""
  }

  /** Dropping the blank lines of trimmed lines leaves non-blank, trimmed
      lines. */
  lemma KeptLinesTrimmed(xs: seq<string>)
    requires forall y :: y in xs ==> Trim(y) == y
    ensures forall k :: 0 <= k < |Seqs.Filter(xs, NonBlank)| ==>
      var l := Seqs.Filter(xs, NonBlank)[k]; l != "" && Trim(l) == l
  {
    var kept := Seqs.Filter(xs, NonBlank);
    forall k | 0 <= k < |kept|
      ensures kept[k] != "" && Trim(kept[k]) == kept[k]
    {
      assert kept[k] in kept;
    }
  }

  /** Every string of a `TrimAll` is already trimmed. */
  lemma TrimAllTrimmed(xs: seq<string>)
    ensures forall y :: y in TrimAll(xs) ==> Trim(y) == y
  {
    forall k | 0 <= k < |xs|
      ensures Trim(TrimAll(xs)[k]) == TrimAll(xs)[k]
    {
      TrimIdempotent(xs[k]);
    }
  }

  /** The comma-separated fields of a line, each trimmed. */
  function Fields(line: string): (fields: seq<string>)
    ensures |fields| == |Split(line, ',')|
  {
    TrimAll(Split(line, ','))
  }

  /** The key under which header cell `h` at 0-based position `i` is stored:
      the cell itself, or `col<i+1>` when it is empty. */
  function ColumnName(h: string, i: nat): string {
    if h == "" then "col" + NatToString(i + 1) else h
  }

  function ColumnNames(header: seq<string>): (names: seq<string>)
    ensures |names| == |header|
    ensures forall i :: 0 <= i < |header| ==> names[i] == ColumnName(header[i], i)
  {
    seq(|header|, i requires 0 <= i < |header| => ColumnName(header[i], i))
  }

  /** The value stored for position `i`: the field, or `null` when the line
      has fewer fields (`cols[i] ?? null`). */
  function CellAt(fields: seq<string>, i: nat): Cell {
    if i < |fields| then Str(fields[i]) else Null
  }

  /** No position after `i` (and before `n`) carries the same name, so the
      assignment for position `i` is not overwritten. */
  ghost predicate LastAt(names: seq<string>, i: int, n: int)
    requires 0 <= i < n <= |names|
  {
    forall j :: i < j < n ==> names[j] != names[i]
  }

  /** The object built by assigning, for each header position in order, the
      position's cell under the position's name; a later position with the
      same name overwrites an earlier one. */
  function BuildRow(names: seq<string>, fields: seq<string>, n: nat): (row: Row)
    requires n <= |names|
    ensures forall i :: 0 <= i < n && LastAt(names, i, n) ==> names[i] in row && row[names[i]] == CellAt(fields, i)
  {
    if n == 0 then map[]
    else BuildRow(names, fields, n - 1)[names[n - 1] := CellAt(fields, n - 1)]
  }

  /** The names of the first `n` header positions. */
  function NamesUpTo(names: seq<string>, n: nat): set<string>
    requires n <= |names|
  {
    if n == 0 then {} else NamesUpTo(names, n - 1) + {names[n - 1]}
  }

  /** A string is among the first `n` names exactly when some position
      before `n` carries it. */
  lemma {:induction false} NamesUpToMembers(names: seq<string>, n: nat, x: string)
    requires n <= |names|
    ensures x in NamesUpTo(names, n) <==> exists i :: 0 <= i < n && names[i] == x
  {
    if n > 0 {
      NamesUpToMembers(names, n - 1, x);
      if x == names[n - 1] {
        assert names[n - 1] == x;
      }
    }
  }

  /** The object gets one key per assigned position's name, and no other. */
  lemma {:induction false} BuildRowKeys(names: seq<string>, fields: seq<string>, n: nat)
    requires n <= |names|
    ensures BuildRow(names, fields, n).Keys == NamesUpTo(names, n)
  {
    if n > 0 {
      BuildRowKeys(names, fields, n - 1);
      var prev := BuildRow(names, fields, n - 1);
      assert BuildRow(names, fields, n) == prev[names[n - 1] := CellAt(fields, n - 1)];
      assert BuildRow(names, fields, n).Keys == prev.Keys + {names[n - 1]};
    }
  }

  /** The keys every row receives: the header cells, empty ones renamed.
      Empty when the text has no content line. */
  function HeaderNames(text: string): seq<string> {
    var lines := ContentLines(text);
    if |lines| == 0 then [] else ColumnNames(Fields(lines[0]))
  }

  /** One row per line, each keyed by `names`. */
  function RowsOf(names: seq<string>, lines: seq<string>): (rows: Table)
    ensures |rows| == |lines|
    ensures forall k :: 0 <= k < |lines| ==> rows[k] == BuildRow(names, Fields(lines[k]), |names|)
  {
    seq(|lines|, k requires 0 <= k < |lines| => BuildRow(names, Fields(lines[k]), |names|))
  }

  /** `parseCSV`: one row per content line after the header. */
  function ParseCsv(text: string): (rows: Table)
  {
    var lines := ContentLines(text);
    if |lines| == 0 then [] else RowsOf(HeaderNames(text), lines[1..])
  }

  /** The set of keys of every parsed row. */
  function KeySet(names: seq<string>): set<string> {
    NamesUpTo(names, |names|)
  }

  /** The first piece of a split starts with the first character of the text
      when that character is not the separator. */
  lemma SplitFirstChar(s: string, sep: char)
    requires |s| > 0 && s[0] != sep
    ensures |Split(s, sep)[0]| > 0 && Split(s, sep)[0][0] == s[0]
  {
  }

  /** Text that is empty or only white space has no content line, and any
      other text has at least one. */
  lemma {:induction false} ContentLinesEmpty(text: string)
    ensures ContentLines(text) == [] <==> AllSpace(text)
  {
    var t := Trim(text);
    var keep := NonBlank;
    if AllSpace(text) {
      assert t == [];
      assert Split(t, '\n') == [""];
      assert SplitLines(t) == [""];
      assert AllSpace("");
      assert TrimAll(SplitLines(t)) == [""];
    } else {
      assert |t| > 0 && !IsSpace(t[0]);
      SplitFirstChar(t, '\n');
      var parts := Split(t, '\n');
      var line := SplitLines(t)[0];
      assert line == if 0 < |parts| - 1 then DropCR(parts[0]) else parts[0];
      assert |line| > 0 && line[0] == t[0];
      assert !AllSpace(line);
      assert Trim(line) != "";
      assert Trim(line) in TrimAll(SplitLines(t));
      assert Trim(line) in ContentLines(text);
    }
  }

  /** Line breaks written as CR LF or as LF alone give the same content
      lines: the carriage return kept by a plain LF split is trimmed away. */
  lemma ContentLinesIgnoreCR(text: string)
    ensures ContentLines(text) == Seqs.Filter(TrimAll(Split(Trim(text), '\n')), NonBlank)
  {
    var parts := Split(Trim(text), '\n');
    forall k | 0 <= k < |parts|
      ensures TrimAll(SplitLines(Trim(text)))[k] == TrimAll(parts)[k]
    {
      TrimIgnoresCR(parts[k]);
    }
    assert TrimAll(SplitLines(Trim(text))) == TrimAll(parts);
  }

  /** Row count: none for empty or white-space-only text, otherwise one per
      content line after the header. */
  lemma ParseCsvRowCount(text: string)
    ensures AllSpace(text) ==> ParseCsv(text) == []
    ensures !AllSpace(text) ==> |ParseCsv(text)| == |ContentLines(text)| - 1
  {
    ContentLinesEmpty(text);
  }

  /** Every parsed row has exactly the header's keys: extra fields on a line
      are dropped and missing ones still get a key. */
  lemma ParseCsvKeys(text: string, k: int)
    requires 0 <= k < |ParseCsv(text)|
    ensures ParseCsv(text)[k].Keys == KeySet(HeaderNames(text))
  {
    var lines := ContentLines(text);
    var names := HeaderNames(text);
    BuildRowKeys(names, Fields(lines[k + 1]), |names|);
  }

  /** The cell under the name of header position `i` is the trimmed `i`-th
      field of the line, or `null` when the line is shorter, provided no later
      header position reuses the name. */
  lemma ParseCsvCell(text: string, k: int, i: int)
    requires 0 <= k < |ParseCsv(text)|
    requires 0 <= i < |HeaderNames(text)|
    requires LastAt(HeaderNames(text), i, |HeaderNames(text)|)
    ensures var parts := Split(ContentLines(text)[k + 1], ',');
      ParseCsv(text)[k][HeaderNames(text)[i]] == (if i < |parts| then Str(Trim(parts[i])) else Null)
  {
    var lines := ContentLines(text);
    var names := HeaderNames(text);
    assert ParseCsv(text)[k] == BuildRow(names, Fields(lines[k + 1]), |names|);
  }

  /** Renamed empty header cells never collide with one another. */
  lemma SyntheticNamesDistinct(i: nat, j: nat)
    requires i != j
    ensures ColumnName("", i) != ColumnName("", j)
  {
    var a := "col" + NatToString(i + 1);
    var b := "col" + NatToString(j + 1);
    assert a[3..] == NatToString(i + 1);
    assert b[3..] == NatToString(j + 1);
    NatToStringInjective(i + 1, j + 1);
  }

  /** A renamed empty header cell has no surrounding white space, and a
      trimmed one keeps none. */
  lemma ColumnNameTrimmed(h: string, i: nat)
    requires Trim(h) == h
    ensures Trim(ColumnName(h, i)) == ColumnName(h, i)
  {
    if h == "" {
      var digits := NatToString(i + 1);
      var name := "col" + digits;
      assert name[0] == 'c';
      assert name[|name| - 1] == digits[|digits| - 1];
      assert IsDigit(digits[|digits| - 1]);
      TrimNoop(name);
    }
  }

  /** Header names are already trimmed, so trimming the keys of a parsed row
      changes nothing. */
  lemma HeaderNamesTrimmed(text: string, i: int)
    requires 0 <= i < |HeaderNames(text)|
    ensures Trim(HeaderNames(text)[i]) == HeaderNames(text)[i]
  {
    var lines := ContentLines(text);
    var parts := Split(lines[0], ',');
    var fields := Fields(lines[0]);
    assert HeaderNames(text)[i] == ColumnName(fields[i], i);
    TrimIdempotent(parts[i]);
    ColumnNameTrimmed(fields[i], i);
  }

  /** Text made of trimmed, non-empty lines joined by line feeds, with no
      white space around it, is read back as exactly those lines. */
  lemma ContentLinesOfJoin(text: string, lines: seq<string>)
    requires |lines| >= 1 && Join(lines, '\n') == text && Trim(text) == text
    requires forall k :: 0 <= k < |lines| ==> lines[k] != "" && Trim(lines[k]) == lines[k] && '\n' !in lines[k]
    ensures ContentLines(text) == lines
  {
    SplitJoin(lines, '\n');
    SplitLinesWithoutCR(text, lines);
    TrimAllFixed(lines);
    Seqs.FilterKeepsAll(lines, NonBlank);
  }

  /** A non-empty trimmed line does not end in a carriage return. */
  lemma DropCRTrimmed(l: string)
    requires l != "" && Trim(l) == l
    ensures DropCR(l) == l
  {
    assert TrimmedAt(l, l, LeadingSpace(l));
    assert !IsSpace(l[|l| - 1]);
  }

  /** Lines that are non-empty and trimmed are the line split's pieces as
      they are. */
  lemma SplitLinesWithoutCR(text: string, lines: seq<string>)
    requires Split(text, '\n') == lines
    requires forall k :: 0 <= k < |lines| ==> lines[k] != "" && Trim(lines[k]) == lines[k]
    ensures SplitLines(text) == lines
  {
    forall k | 0 <= k < |lines|
      ensures DropCR(lines[k]) == lines[k]
    {
      DropCRTrimmed(lines[k]);
    }
  }

  /** Trimming trimmed strings changes none of them. */
  lemma TrimAllFixed(xs: seq<string>)
    requires forall k :: 0 <= k < |xs| ==> Trim(xs[k]) == xs[k]
    ensures TrimAll(xs) == xs
  {
  }

  /** The content lines of the two-line example. */
  lemma ExampleLines()
    ensures ContentLines("a,b,c\n1,2") == ["a,b,c", "1,2"]
  {
    var lines := ["a,b,c", "1,2"];
    ExampleLine("a,b,c");
    ExampleLine("1,2");
    assert Join(lines, '\n') == "a,b,c\n1,2";
    TrimNoop("a,b,c\n1,2");
    ContentLinesOfJoin("a,b,c\n1,2", lines);
  }

  /** A line of the example is non-empty, trimmed and has no line feed. */
  lemma ExampleLine(l: string)
    requires l == "a,b,c" || l == "1,2"
    ensures l != "" && Trim(l) == l && '\n' !in l
  {
    TrimNoop(l);
  }

  /** The trimmed fields of a line of one-character cells. */
  lemma ExampleFields(line: string, fields: seq<string>)
    requires |fields| >= 1
    requires forall k :: 0 <= k < |fields| ==> |fields[k]| == 1 && !IsSpace(fields[k][0]) && fields[k][0] != ','
    requires Join(fields, ',') == line
    ensures Fields(line) == fields
  {
    SplitJoin(fields, ',');
    forall k | 0 <= k < |fields|
      ensures Trim(fields[k]) == fields[k]
    {
      TrimNoop(fields[k]);
    }
  }

  /** The rows of a text, given its content lines. */
  lemma ParseCsvOfLines(text: string, lines: seq<string>)
    requires ContentLines(text) == lines && |lines| >= 1
    ensures ParseCsv(text) == RowsOf(ColumnNames(Fields(lines[0])), lines[1..])
  {
  }

  /** The example text read as rows over its header line. */
  lemma ExampleRows()
    ensures ParseCsv("a,b,c\n1,2") == RowsOf(ColumnNames(Fields("a,b,c")), ["1,2"])
  {
    ExampleLines();
    ParseCsvOfLines("a,b,c\n1,2", ["a,b,c", "1,2"]);
    assert ["a,b,c", "1,2"][1..] == ["1,2"];
  }

  /** The example's header names. */
  lemma ExampleHeader()
    ensures ColumnNames(Fields("a,b,c")) == ["a", "b", "c"]
  {
    var fields := ["a", "b", "c"];
    assert Join(fields, ',') == "a,b,c";
    ExampleFields("a,b,c", fields);
    ColumnNamesKeep(fields);
  }

  /** A header without empty cells is used as it is. */
  lemma ColumnNamesKeep(header: seq<string>)
    requires forall i :: 0 <= i < |header| ==> header[i] != ""
    ensures ColumnNames(header) == header
  {
  }

  /** The example's data fields. */
  lemma ExampleData()
    ensures Fields("1,2") == ["1", "2"]
  {
    assert Join(["1", "2"], ',') == "1,2";
    ExampleFields("1,2", ["1", "2"]);
  }

  /** Rows over a three-name header from a two-field line. */
  lemma ShortRow(names: seq<string>, line: string)
    requires names == ["a", "b", "c"] && Fields(line) == ["1", "2"]
    ensures RowsOf(names, [line]) == [map["a" := Str("1"), "b" := Str("2"), "c" := Null]]
  {
    var rows := RowsOf(names, [line]);
    assert |rows| == 1 && rows[0] == BuildRow(names, ["1", "2"], 3);
    assert BuildRow(["a", "b", "c"], ["1", "2"], 3) == map["a" := Str("1"), "b" := Str("2"), "c" := Null];
  }

  /** A header `a,b,c` over the line `1,2`: the short line pads `c` with
      `null` rather than failing. */
  lemma ShortLinePadsNull()
    ensures ParseCsv("a,b,c\n1,2") == [map["a" := Str("1"), "b" := Str("2"), "c" := Null]]
  {
    ExampleRows();
    ExampleHeader();
    ExampleData();
    ShortRow(ColumnNames(Fields("a,b,c")), "1,2");
  }
}

=== FILE: ingest.dfy ===
/** Choosing a parser for an uploaded file (`parseFileToRows` in
    InteractionBlock.tsx) and the message a failed parse leaves behind. The
    file's text and the spreadsheet library's reading of its first sheet are
    carried by the file itself, standing in for the asynchronous reads. */
module Ingest {
  import opened Wrappers
  import opened Text
  import opened Csv

  /** Which reader a file name selects. */
  datatype FileKind = CsvText | Workbook | Unsupported

  /** Why reading a file failed. `SpreadsheetUnavailable` is the failure to
      load the optional `xlsx` package, which the panel reports with its own
      installation hint; `SpreadsheetFailed` is any other spreadsheet error. */
  datatype ParseError =
    | UnsupportedFormat
    | SpreadsheetUnavailable
    | SpreadsheetFailed(message: string)

  /** A selected file: its name, its content as text, and what the
      spreadsheet library makes of its first sheet (rows with `null` for
      missing cells, or a failure). */
  datatype FileRef = FileRef(name: string, text: string, workbook: Result<Table, ParseError>)

  const UnsupportedMessage: string := "Поддерживаются только CSV и XLSX файлы."

  const XlsxMissingMessage: string := "Для разбора XLSX требуется пакет `xlsx`. Установите: npm i xlsx"

  /** The reader chosen by the lower-cased name's suffix; `.csv` is tested
      first, then `.xlsx` and `.xls`. */
  function KindOf(name: string): FileKind {
    var lower := ToLower(name);
    if EndsWith(lower, ".csv") then CsvText
    else if EndsWith(lower, ".xlsx") || EndsWith(lower, ".xls") then Workbook
    else Unsupported
  }

  /** `parseFileToRows`. A CSV file is read by the CSV parser and never fails;
      a workbook yields the spreadsheet library's outcome; any other name fails
      with `UnsupportedFormat` whatever the file holds. */
  function ParseFileToRows(f: FileRef): (r: Result<Table, ParseError>)
    ensures KindOf(f.name) == Unsupported ==> r == Err(UnsupportedFormat)
    ensures r.Err? ==> KindOf(f.name) != CsvText
    ensures KindOf(f.name) == CsvText ==> r.Ok? && r.value == ParseCsv(f.text)
    ensures KindOf(f.name) == Workbook ==> r == f.workbook
  {
    match KindOf(f.name)
    case CsvText => Ok(ParseCsv(f.text))
    case Workbook => f.workbook
    case Unsupported => Err(UnsupportedFormat)
  }

  /** The text shown after a failed parse. */
  function ErrorMessage(e: ParseError): string {
    match e
    case UnsupportedFormat => UnsupportedMessage
    case SpreadsheetUnavailable => XlsxMissingMessage
    case SpreadsheetFailed(m) => m
  }

  /** Two names that differ only in the case of ASCII letters. */
  ghost predicate SameUpToCase(a: string, b: string) {
    |a| == |b| && forall k :: 0 <= k < |a| ==> LowerChar(a[k]) == LowerChar(b[k])
  }

  /** The choice of reader ignores letter case: `DATA.CSV`, `data.csv` and
      `Data.Csv` are all read as CSV. */
  lemma KindIgnoresCase(a: string, b: string)
    requires SameUpToCase(a, b)
    ensures KindOf(a) == KindOf(b)
  {
    assert ToLower(a) == ToLower(b);
  }

  /** An unsupported name fails before anything is read: the outcome does not
      depend on the file's content. */
  lemma UnsupportedReadsNothing(name: string, text1: string, text2: string,
                                book1: Result<Table, ParseError>, book2: Result<Table, ParseError>)
    requires KindOf(name) == Unsupported
    ensures ParseFileToRows(FileRef(name, text1, book1)) == ParseFileToRows(FileRef(name, text2, book2))
    ensures ParseFileToRows(FileRef(name, text1, book1)).Err?
  {
  }

  /** Lower-casing works character by character, so it distributes over
      concatenation. */
  lemma ToLowerConcat(a: string, b: string)
    ensures ToLower(a + b) == ToLower(a) + ToLower(b)
  {
  }

  /** Any name whose extension lower-cases to `.csv` is read as CSV. */
  lemma CsvSuffix(stem: string, ext: string)
    requires ToLower(ext) == ".csv"
    ensures KindOf(stem + ext) == CsvText
  {
    ToLowerConcat(stem, ext);
    var lower := ToLower(stem + ext);
    assert lower[|lower| - 4..] == ".csv";
  }

  /** Any name whose extension lower-cases to `.xlsx` or `.xls` is read as a
      spreadsheet. */
  lemma WorkbookSuffix(stem: string, ext: string)
    requires ToLower(ext) == ".xlsx" || ToLower(ext) == ".xls"
    ensures KindOf(stem + ext) == Workbook
  {
    ToLowerConcat(stem, ext);
    var lower := ToLower(stem + ext);
    assert lower[|lower| - |ext|..] == ToLower(ext);
    assert lower[|lower| - 1] != 'v';
  }

  /** A name whose last character, lower-cased, ends none of the suffixes
      (`v`, `x`, `s`) is unsupported. */
  lemma UnsupportedByLastChar(name: string)
    requires |name| > 0
    requires LowerChar(name[|name| - 1]) !in {'v', 'x', 's'}
    ensures KindOf(name) == Unsupported
  {
    var lower := ToLower(name);
    assert lower[|lower| - 1] == LowerChar(name[|name| - 1]);
  }

  /** Lower-casing works character by character, so it commutes with
      taking a suffix. */
  lemma ToLowerSuffix(s: string, k: nat)
    requires k <= |s|
    ensures ToLower(s[k..]) == ToLower(s)[k..]
  {
  }

  /** A name that ends, in any letter case, in `ext`. */
  predicate EndsInLower(name: string, ext: string) {
    exists k :: 0 <= k <= |name| && ToLower(name[k..]) == ext
  }

  /** The suffix dispatch exactly: a name is read as CSV if and only if it
      ends in `.csv` in some letter case, as a spreadsheet if and only if it
      ends in `.xlsx` or `.xls` in some letter case, and it is unsupported
      if and only if it ends in none of the three. */
  lemma KindOfOnlySuffixes(name: string)
    ensures KindOf(name) == CsvText <==> EndsInLower(name, ".csv")
    ensures KindOf(name) == Workbook <==> EndsInLower(name, ".xlsx") || EndsInLower(name, ".xls")
    ensures KindOf(name) == Unsupported <==>
      !EndsInLower(name, ".csv") && !EndsInLower(name, ".xlsx") && !EndsInLower(name, ".xls")
  {
    var lower := ToLower(name);
    forall ext | ext in [".csv", ".xlsx", ".xls"]
      ensures EndsWith(lower, ext) <==> EndsInLower(name, ext)
    {
      if EndsWith(lower, ext) {
        var k := |name| - |ext|;
        ToLowerSuffix(name, k);
      }
      if EndsInLower(name, ext) {
        var k :| 0 <= k <= |name| && ToLower(name[k..]) == ext;
        ToLowerSuffix(name, k);
      }
    }
    assert !(EndsWith(lower, ".csv") && (EndsWith(lower, ".xlsx") || EndsWith(lower, ".xls"))) by {
      if EndsWith(lower, ".csv") {
        assert lower[|lower| - 1] == 'v';
      }
    }
  }

  /** Names whose suffix is none of the three: a text file, and a CSV name
      with a further extension. */
  lemma UnsupportedExamples()
    ensures KindOf("notes.txt") == Unsupported
    ensures KindOf("today.csv.bak") == Unsupported
  {
    UnsupportedByLastChar("notes.txt");
    UnsupportedByLastChar("today.csv.bak");
  }

  /** Whatever the stem, an upper-case CSV suffix and both spreadsheet
      suffixes in mixed case are recognised. */
  lemma KindExamples(stem: string)
    ensures KindOf(stem + ".CSV") == CsvText
    ensures KindOf(stem + ".Xlsx") == Workbook
    ensures KindOf(stem + ".XLS") == Workbook
  {
    assert ToLower(".CSV") == ".csv";
    CsvSuffix(stem, ".CSV");
    assert ToLower(".Xlsx") == ".xlsx";
    WorkbookSuffix(stem, ".Xlsx");
    assert ToLower(".XLS") == ".xls";
    WorkbookSuffix(stem, ".XLS");
  }

  /** The missing-package hint is told apart from the unsupported-format
      message. */
  lemma MessagesDistinct()
    ensures ErrorMessage(SpreadsheetUnavailable) != ErrorMessage(UnsupportedFormat)
  {
    assert |XlsxMissingMessage| != |UnsupportedMessage|;
  }
}

=== FILE: ints.dfy ===
/** `Math.min` and `Math.max` on integers, shared by the chart layout and the
    upload panel's preview. */
module Ints {

  function Min(a: int, b: int): (m: int)
    ensures m <= a && m <= b && (m == a || m == b)
  {
    if a <= b then a else b
  }

  function Max(a: int, b: int): (m: int)
    ensures m >= a && m >= b && (m == a || m == b)
  {
    if a >= b then a else b
  }
}

=== FILE: seqs.dfy ===
/** Order-preserving filtering of sequences, the `Array.prototype.filter`
    used both to drop blank lines and to collect missing column names. */
module Seqs {

  /** `sub` is obtained from `s` by deleting elements, keeping the order. */
  ghost predicate IsSubsequence<T>(sub: seq<T>, s: seq<T>)
    decreases |s|
  {
    if |sub| == 0 then true
    else if |s| == 0 then false
    else if sub[0] == s[0] then IsSubsequence(sub[1..], s[1..])
    else IsSubsequence(sub, s[1..])
  }

  /** The elements of `s` that `keep` accepts, in their original order. */
  function Filter<T(!new)>(s: seq<T>, keep: T -> bool): (r: seq<T>)
    ensures |r| <= |s|
    ensures forall x :: x in r <==> x in s && keep(x)
    ensures IsSubsequence(r, s)
  {
    if |s| == 0 then []
    else if keep(s[0]) then [s[0]] + Filter(s[1..], keep)
    else Filter(s[1..], keep)
  }

  /** Filtering distributes over concatenation. Together with the one-element
      case this pins `Filter` down completely: each element is kept or dropped
      on its own, in place. */
  lemma {:induction false} FilterConcat<T(!new)>(a: seq<T>, b: seq<T>, keep: T -> bool)
    ensures Filter(a + b, keep) == Filter(a, keep) + Filter(b, keep)
    decreases |a|
  {
    if |a| == 0 {
      assert a + b == b;
    } else {
      assert (a + b)[1..] == a[1..] + b;
      FilterConcat(a[1..], b, keep);
    }
  }

  /** A filter that rejects nothing returns its input, and one that rejects
      something returns a strictly shorter sequence. */
  lemma {:induction false} FilterKeepsAll<T(!new)>(s: seq<T>, keep: T -> bool)
    ensures Filter(s, keep) == s <==> forall x :: x in s ==> keep(x)
    decreases |s|
  {
    if |s| > 0 {
      FilterKeepsAll(s[1..], keep);
      if !keep(s[0]) {
        assert |Filter(s, keep)| < |s|;
      }
    }
  }

  /** A filter yields nothing exactly when it rejects every element. */
  lemma FilterEmpty<T(!new)>(s: seq<T>, keep: T -> bool)
    ensures Filter(s, keep) == [] <==> forall x :: x in s ==> !keep(x)
  {
    if exists x :: x in s && keep(x) {
      var x :| x in s && keep(x);
      assert x in Filter(s, keep);
    }
  }
}

=== FILE: text.dfy ===
/** String primitives of the JavaScript runtime that the upload parser relies
    on: `String.prototype.trim`, `split` on one separator character, the
    `/\r?\n/` line split, ASCII lower-casing with `endsWith`, and the decimal
    rendering of a natural number inside a template literal. */
module Text {

  /** The code points `trim` strips: the WhiteSpace class (tab, vertical tab,
      form feed, space, no-break space, byte order mark and every other space
      separator) and the LineTerminator class (LF, CR, U+2028, U+2029) of
      ECMA-262. */
  predicate IsSpace(c: char) {
    || c == '\t' || c == '\n' || c == '\U{000B}' || c == '\U{000C}' || c == '\r'
    || c == ' ' || c == '\U{00A0}' || c == '\U{1680}'
    || ('\U{2000}' <= c <= '\U{200A}')
    || c == '\U{2028}' || c == '\U{2029}' || c == '\U{202F}' || c == '\U{205F}'
    || c == '\U{3000}' || c == '\U{FEFF}'
  }

  predicate AllSpace(s: string) {
    forall k :: 0 <= k < |s| ==> IsSpace(s[k])
  }

  /** Number of white-space characters at the start of `s`. */
  function LeadingSpace(s: string): (n: nat)
    ensures n <= |s|
    ensures forall k :: 0 <= k < n ==> IsSpace(s[k])
    ensures n < |s| ==> !IsSpace(s[n])
  {
    if |s| > 0 && IsSpace(s[0]) then 1 + LeadingSpace(s[1..]) else 0
  }

  /** Number of white-space characters at the end of `s`. */
  function TrailingSpace(s: string): (n: nat)
    ensures n <= |s|
    ensures forall k :: |s| - n <= k < |s| ==> IsSpace(s[k])
    ensures n < |s| ==> !IsSpace(s[|s| - n - 1])
  {
    if |s| > 0 && IsSpace(s[|s| - 1]) then 1 + TrailingSpace(s[..|s| - 1]) else 0
  }

  /** `t` is `s` with a white-space prefix of length `i` and a white-space
      suffix removed, and `t` neither starts nor ends with white space. */
  ghost predicate TrimmedAt(s: string, t: string, i: int) {
    && 0 <= i <= |s| - |t|
    && s[i..i + |t|] == t
    && (forall k :: 0 <= k < i ==> IsSpace(s[k]))
    && (forall k :: i + |t| <= k < |s| ==> IsSpace(s[k]))
    && (|t| == 0 || (!IsSpace(t[0]) && !IsSpace(t[|t| - 1])))
  }

  /** `String.prototype.trim`. */
  function Trim(s: string): (t: string)
    ensures TrimmedAt(s, t, LeadingSpace(s))
    ensures t == [] <==> AllSpace(s)
  {
    var a := LeadingSpace(s);
    var rest := s[a..];
    var b := TrailingSpace(rest);
    var t := rest[..|rest| - b];
    TrimCut(s, a, rest, b, t);
    t
  }

  /** Cutting the leading white space and then the trailing white space of
      what is left trims `s`. */
  lemma TrimCut(s: string, a: nat, rest: string, b: nat, t: string)
    requires a <= |s| && rest == s[a..] && b <= |rest| && t == rest[..|rest| - b]
    requires forall k :: 0 <= k < a ==> IsSpace(s[k])
    requires a < |s| ==> !IsSpace(s[a])
    requires forall k :: |rest| - b <= k < |rest| ==> IsSpace(rest[k])
    requires b < |rest| ==> !IsSpace(rest[|rest| - b - 1])
    ensures TrimmedAt(s, t, a)
    ensures t == [] <==> AllSpace(s)
  {
    assert s[a..a + |t|] == t;
    forall k | a + |t| <= k < |s|
      ensures IsSpace(s[k])
    {
      assert s[k] == rest[k - a];
    }
    if |t| > 0 {
      assert t[0] == s[a];
      assert t[|t| - 1] == rest[|rest| - b - 1];
    } else {
      TrimCutEmpty(s, a, rest);
    }
  }

  /** When nothing is left between the two cuts, `s` is all white space. */
  lemma TrimCutEmpty(s: string, a: nat, rest: string)
    requires a <= |s| && rest == s[a..] && AllSpace(rest)
    requires forall k :: 0 <= k < a ==> IsSpace(s[k])
    ensures AllSpace(s)
  {
    forall k | a <= k < |s|
      ensures IsSpace(s[k])
    {
      assert s[k] == rest[k - a];
    }
  }

  /** The white-space prefix of `s` is determined by where the first
      non-space character sits. */
  lemma LeadingSpaceUnique(s: string, i: int)
    requires 0 <= i <= |s|
    requires forall k :: 0 <= k < i ==> IsSpace(s[k])
    requires i < |s| ==> !IsSpace(s[i])
    ensures LeadingSpace(s) == i
  {
  }

  /** The white-space suffix of `s` is determined likewise. */
  lemma TrailingSpaceUnique(s: string, j: int)
    requires 0 <= j <= |s|
    requires forall k :: |s| - j <= k < |s| ==> IsSpace(s[k])
    requires j < |s| ==> !IsSpace(s[|s| - j - 1])
    ensures TrailingSpace(s) == j
  {
  }

  /** `Trim` is the only way to cut white space off both ends so that none is
      left at either end: any such cut yields `Trim(s)`. */
  lemma TrimUnique(s: string, t: string, i: int)
    requires TrimmedAt(s, t, i)
    ensures t == Trim(s)
  {
    if |t| == 0 {
      assert AllSpace(s);
    } else {
      assert s[i] == t[0];
      LeadingSpaceUnique(s, i);
      var rest := s[i..];
      assert rest[..|t|] == t;
      assert rest[|rest| - (|rest| - |t|) - 1] == t[|t| - 1];
      TrailingSpaceUnique(rest, |rest| - |t|);
    }
  }

  /** Trimming twice is trimming once. */
  lemma TrimIdempotent(s: string)
    ensures Trim(Trim(s)) == Trim(s)
  {
    var t := Trim(s);
    assert t[0..0 + |t|] == t;
    TrimUnique(t, t, 0);
  }

  /** A string that neither starts nor ends with white space is left as is. */
  lemma TrimNoop(s: string)
    requires |s| == 0 || (!IsSpace(s[0]) && !IsSpace(s[|s| - 1]))
    ensures Trim(s) == s
  {
    assert s[0..|s|] == s;
    TrimUnique(s, s, 0);
  }

  /** Concatenation of `parts` with `sep` between neighbours
      (`Array.prototype.join`). */
  function Join(parts: seq<string>, sep: char): string
    requires |parts| >= 1
  {
    if |parts| == 1 then parts[0] else parts[0] + [sep] + Join(parts[1..], sep)
  }

  /** `String.prototype.split` with a one-character separator: the maximal
      separator-free pieces of `s`, one more than there are separators. */
  function Split(s: string, sep: char): (parts: seq<string>)
    ensures |parts| >= 1
    ensures forall k :: 0 <= k < |parts| ==> sep !in parts[k]
    ensures Join(parts, sep) == s
  {
    if |s| == 0 then [""]
    else
      var rest := Split(s[1..], sep);
      if s[0] == sep then
        assert s == [sep] + s[1..];
        [""] + rest
      else
        var parts := [[s[0]] + rest[0]] + rest[1..];
        assert parts[1..] == rest[1..];
        assert s == [s[0]] + s[1..];
        parts
  }

  /** `Split` undoes `Join`: joining separator-free pieces and splitting the
      result gives the pieces back. */
  lemma {:induction false} SplitJoin(parts: seq<string>, sep: char)
    requires |parts| >= 1
    requires forall k :: 0 <= k < |parts| ==> sep !in parts[k]
    ensures Split(Join(parts, sep), sep) == parts
    decreases |Join(parts, sep)|
  {
    var s := Join(parts, sep);
    if |parts[0]| == 0 {
      if |parts| > 1 {
        assert s == [sep] + Join(parts[1..], sep);
        assert s[1..] == Join(parts[1..], sep);
        SplitJoin(parts[1..], sep);
        assert parts == [""] + parts[1..];
      }
    } else {
      var c := parts[0][0];
      assert c == parts[0][0] && c != sep;
      var shorter := [parts[0][1..]] + parts[1..];
      assert shorter[1..] == parts[1..];
      assert forall k :: 0 <= k < |shorter| ==> sep !in shorter[k];
      if |parts| == 1 {
        assert s == [c] + Join(shorter, sep);
      } else {
        assert s == [c] + parts[0][1..] + [sep] + Join(parts[1..], sep);
        assert s == [c] + Join(shorter, sep);
      }
      assert s[1..] == Join(shorter, sep);
      SplitJoin(shorter, sep);
      assert [c] + parts[0][1..] == parts[0];
      assert parts == [[c] + shorter[0]] + shorter[1..];
    }
  }

  /** `p` without one trailing carriage return, if it has one. */
  function DropCR(p: string): string {
    if |p| > 0 && p[|p| - 1] == '\r' then p[..|p| - 1] else p
  }

  /** `s.split(/\r?\n/)`: the pieces between line feeds, where a carriage
      return immediately before a line feed belongs to the separator. */
  function SplitLines(s: string): (lines: seq<string>)
    ensures |lines| == |Split(s, '\n')|
    ensures forall k :: 0 <= k < |lines| ==> '\n' !in lines[k]
  {
    var parts := Split(s, '\n');
    seq(|parts|, k requires 0 <= k < |parts| =>
      if k < |parts| - 1 then DropCR(parts[k]) else parts[k])
  }

  /** Line `k` is the `k`-th line-feed piece, less one carriage return right
      before the line feed that ends it; the last piece is kept whole. */
  lemma SplitLinesPiece(s: string, k: int)
    requires 0 <= k < |Split(s, '\n')|
    ensures var p := Split(s, '\n')[k];
      || SplitLines(s)[k] == p
      || (k < |Split(s, '\n')| - 1 && SplitLines(s)[k] + ['\r'] == p)
    ensures var p := Split(s, '\n')[k];
      k < |Split(s, '\n')| - 1 && |p| > 0 && p[|p| - 1] == '\r' ==> SplitLines(s)[k] + ['\r'] == p
  {
    var parts := Split(s, '\n');
    var p := parts[k];
    assert SplitLines(s)[k] == if k < |parts| - 1 then DropCR(p) else p;
    if |p| > 0 {
      assert p[..|p| - 1] + ['\r'] == p || p[|p| - 1] != '\r';
    }
  }

  /** A carriage return dropped by the line split would have been removed by
      trimming the line anyway. */
  lemma TrimIgnoresCR(p: string)
    ensures Trim(DropCR(p)) == Trim(p)
  {
    if |p| > 0 && p[|p| - 1] == '\r' {
      var q := p[..|p| - 1];
      var t := Trim(q);
      var i := LeadingSpace(q);
      assert p == q + ['\r'];
      TrimmedAtAppend(q, t, i, '\r');
      TrimUnique(p, t, i);
    }
  }

  /** Appending a white-space character keeps a trimming cut valid. */
  lemma TrimmedAtAppend(q: string, t: string, i: int, c: char)
    requires TrimmedAt(q, t, i) && IsSpace(c)
    ensures TrimmedAt(q + [c], t, i)
  {
    var p := q + [c];
    assert p[i..i + |t|] == q[i..i + |t|];
    assert forall k :: 0 <= k < |q| ==> p[k] == q[k];
  }

  /** ASCII lower-casing of one character; other characters are unchanged. */
  function LowerChar(c: char): char {
    if 'A' <= c <= 'Z' then (c as int + 32) as char else c
  }

  /** `String.prototype.toLowerCase`, restricted to ASCII letters. */
  function ToLower(s: string): (r: string)
    ensures |r| == |s|
  {
    seq(|s|, k requires 0 <= k < |s| => LowerChar(s[k]))
  }

  /** `String.prototype.endsWith`. */
  predicate EndsWith(s: string, suffix: string) {
    |suffix| <= |s| && s[|s| - |suffix|..] == suffix
  }

  predicate IsDigit(c: char) {
    '0' <= c <= '9'
  }

  /** Decimal rendering of `n`, as a template literal prints a number. */
  function NatToString(n: nat): (s: string)
    ensures |s| >= 1
    ensures forall k :: 0 <= k < |s| ==> IsDigit(s[k])
    decreases n
  {
    var d := "0123456789"[n % 10];
    if n < 10 then [d] else NatToString(n / 10) + [d]
  }

  /** The number a string of decimal digits denotes. */
  predicate AllDigits(s: string) {
    forall k :: 0 <= k < |s| ==> IsDigit(s[k])
  }

  function DigitsValue(s: string): nat
    requires AllDigits(s)
  {
    if |s| == 0 then 0
    else
      assert IsDigit(s[|s| - 1]);
      DigitsValue(s[..|s| - 1]) * 10 + (s[|s| - 1] as int - '0' as int)
  }

  /** Reading back the decimal rendering gives the number again. */
  lemma {:induction false} NatToStringRoundTrip(n: nat)
    ensures DigitsValue(NatToString(n)) == n
    decreases n
  {
    var s := NatToString(n);
    if n >= 10 {
      NatToStringRoundTrip(n / 10);
      assert s[..|s| - 1] == NatToString(n / 10);
    }
  }

  /** Different numbers render differently. */
  lemma NatToStringInjective(m: nat, n: nat)
    requires m != n
    ensures NatToString(m) != NatToString(n)
  {
    NatToStringRoundTrip(m);
    NatToStringRoundTrip(n);
  }
}

=== FILE: view.dfy ===
/** What the prediction view (PredictionsView.tsx) draws for a list of
    forecast rows: the "no predictions" indicator for an empty list, and
    otherwise the summary line, the y-axis ticks, one bar per row, the
    thinned x-axis labels and the first twenty rows of the detail table.
    Markup and colours are reduced to the values they are computed from. */
module PredictionsView {
  import opened Aggregates
  import opened Chart
  import opened Ints
  import opened Text

  /** Which rendering `numberFormat` picks: digit grouping from 1000 on,
      no decimals for a whole number, otherwise two decimals. */
  datatype NumberStyle = Grouped | WholeNumber | TwoDecimals

  /** A real is whole when it equals its floor (`v % 1 === 0`). */
  predicate IsWhole(v: real) {
    v == v.Floor as real
  }

  /** The branch `numberFormat` takes for `v`. */
  function StyleOf(v: real): (k: NumberStyle)
    ensures k == Grouped <==> v >= 1000.0
    ensures k == WholeNumber <==> v < 1000.0 && IsWhole(v)
    ensures k == TwoDecimals <==> v < 1000.0 && !IsWhole(v)
  {
    if v >= 1000.0 then Grouped
    else if IsWhole(v) then WholeNumber
    else TwoDecimals
  }

  /** Representative values of the three branches. */
  lemma StyleExamples()
    ensures StyleOf(999.0) == WholeNumber
    ensures StyleOf(999.5) == TwoDecimals
    ensures StyleOf(1000.0) == Grouped
    ensures StyleOf(1500.25) == Grouped
    ensures StyleOf(-3.0) == WholeNumber
    ensures StyleOf(0.25) == TwoDecimals
  {
    assert (999.5).Floor == 999;
    assert (0.25).Floor == 0;
  }

  /** `toFixed(0)` of a whole number: an optional minus sign and the decimal
      digits. */
  function WholeText(i: int): (s: string)
    ensures |s| >= 1
  {
    if i < 0 then "-" + NatToString(-i) else NatToString(i)
  }

  /** Reading a whole number's text back: a leading minus negates the
      digits after it; text of any other shape reads as 0. */
  function ReadWhole(s: string): int {
    if |s| > 0 && s[0] == '-' && AllDigits(s[1..]) then 0 - DigitsValue(s[1..]) as int
    else if AllDigits(s) then DigitsValue(s)
    else 0
  }

  /** The text of a whole number reads back as that number. */
  lemma WholeTextRoundTrip(i: int)
    ensures ReadWhole(WholeText(i)) == i
  {
    if i < 0 {
      var d := NatToString(-i);
      assert WholeText(i) == "-" + d;
      MinusDigitsRead(d);
      NatToStringRoundTrip(-i);
    } else {
      var d := NatToString(i);
      assert WholeText(i) == d;
      DigitsRead(d);
      NatToStringRoundTrip(i);
    }
  }

  /** A minus sign followed by digits reads as the negated digits. */
  lemma MinusDigitsRead(d: string)
    requires AllDigits(d)
    ensures ReadWhole("-" + d) == 0 - DigitsValue(d) as int
  {
    assert ("-" + d)[1..] == d;
  }

  /** Digits alone read as their value. */
  lemma DigitsRead(d: string)
    requires |d| > 0 && AllDigits(d)
    ensures ReadWhole(d) == DigitsValue(d)
  {
    assert IsDigit(d[0]);
  }

  /** `Math.round(x * 100) / 100`: `Math.round` takes the floor of `y + 0.5`,
      so halves go up. */
  function Round2(x: real): (r: real)
    ensures x - 0.005 < r <= x + 0.005
    ensures (r * 100.0).Floor as real == r * 100.0
  {
    ((x * 100.0 + 0.5).Floor as real) / 100.0
  }

  /** A value that already has at most two decimals is kept as it is. */
  lemma Round2Keeps(q: int)
    ensures Round2(q as real / 100.0) == q as real / 100.0
  {
    assert q as real / 100.0 * 100.0 + 0.5 == q as real + 0.5;
    assert (q as real + 0.5).Floor == q;
  }

  /** One y-axis tick: its vertical position and the value printed there. */
  datatype Tick = Tick(y: real, value: real)

  /** The tick at fraction `t` from the top: `y = padding.top + t * innerH`,
      showing `(1 - t) * maxTotal` rounded to two decimals. */
  function TickAt(t: real, maxTotal: real): Tick {
    Tick(PadTop as real + t * InnerH as real, Round2((1.0 - t) * maxTotal))
  }

  /** The three ticks at the top, the middle and the base of the plot. */
  function Ticks(maxTotal: real): (ts: seq<Tick>)
    ensures |ts| == 3
  {
    [TickAt(0.0, maxTotal), TickAt(0.5, maxTotal), TickAt(1.0, maxTotal)]
  }

  /** The ticks name the scale: the top one shows the scale maximum
      (rounded), the middle one half of it within half a hundredth, the
      bottom one 0, and they sit at the top, middle and base of the plotting
      area. */
  lemma TicksSpanScale(maxTotal: real)
    ensures Ticks(maxTotal)[0] == Tick(PadTop as real, Round2(maxTotal))
    ensures Ticks(maxTotal)[1].y == (PadTop as real) + (InnerH as real) / 2.0
    ensures maxTotal / 2.0 - 0.005 < Ticks(maxTotal)[1].value <= maxTotal / 2.0 + 0.005
    ensures Ticks(maxTotal)[2] == Tick((PadTop + InnerH) as real, 0.0)
  {
    Round2Keeps(0);
  }

  /** A bar whose total is the unrounded value of a tick has its top exactly
      on that tick's line, so the ticks read off the bars' scale. */
  lemma TickAlignsWithBar(t: real, maxTotal: real)
    requires maxTotal > 0.0
    ensures BarTop((1.0 - t) * maxTotal, maxTotal) == TickAt(t, maxTotal).y
  {
    DivCancel(1.0 - t, maxTotal);
  }

  /** Multiplying and then dividing by the same positive real is the
      identity. */
  lemma DivCancel(a: real, m: real)
    requires m > 0.0
    ensures a * m / m == a
  {
    var q := a * m / m;
    assert q * m == a * m;
    assert (q - a) * m == 0.0;
  }

  /** One drawn bar: its left edge, top edge, width, drawn height, whether it
      has the peak fill, and the total printed above it. */
  datatype Bar = Bar(x: int, top: real, width: int, height: real, peak: bool, caption: real)

  /** One x-axis label: the bar it belongs to, its centre and its text. */
  datatype XLabel = XLabel(index: nat, x: real, text: string)

  /** One line of the detail table: the one-based row number and the two
      predicted values. */
  datatype TableRow = TableRow(number: nat, meanPerHour: real, dayTotal: real)

  /** The summary line: day total, mean per hour, the one-based row of the
      peak and its total. */
  datatype Summary = Summary(total: real, meanPerHour: real, peakRow: nat, peakValue: real)

  /** What the view shows. */
  datatype View =
    | NoPredictions
    | Rendered(summary: Summary, maxTotal: real, gap: int, barWidth: int,
               ticks: seq<Tick>, bars: seq<Bar>, labels: seq<XLabel>, table: seq<TableRow>)

  /** Bar `i` of `rows`. */
  function BarFor(rows: seq<PredictionRow>, i: nat, maxTotal: real, w: int, g: int, peak: nat): Bar
    requires i < |rows| && maxTotal > 0.0
  {
    var total := rows[i].dayTotal;
    Bar(BarX(i, w, g), BarTop(total, maxTotal), w, DrawnHeight(BarHeight(total, maxTotal)), i == peak, total)
  }

  /** The label of bar `i`, centred under it and showing `i + 1`. */
  function LabelFor(i: nat, w: int, g: int): XLabel {
    XLabel(i, BarX(i, w, g) as real + w as real / 2.0, NatToString(i + 1))
  }

  /** The detail-table line for row `i`. */
  function TableRowFor(rows: seq<PredictionRow>, i: nat): TableRow
    requires i < |rows|
  {
    TableRow(i + 1, rows[i].meanPerHour, rows[i].dayTotal)
  }

  /** The summary line of a non-empty list. */
  function SummaryOf(rows: seq<PredictionRow>): Summary
    requires |rows| > 0
  {
    var peak := PeakIndex(rows);
    Summary(SumTotals(rows), AverageMean(rows), peak + 1, rows[peak].dayTotal)
  }

  /** The view of a list of rows. */
  function Render(rows: seq<PredictionRow>): (v: View)
    ensures v.NoPredictions? <==> |rows| == 0
    ensures v.Rendered? ==>
      && |v.bars| == |rows|
      && |v.labels| <= 20
      && |v.table| == Min(20, |rows|)
      && v.maxTotal >= 1.0
  {
    if |rows| == 0 then NoPredictions
    else
      var n := |rows|;
      var peak := PeakIndex(rows);
      var m := MaxTotal(rows);
      var g := Gap(n);
      var w := BarWidth(n);
      var shown := XLabels(n);
      LabelsBounded(n);
      Rendered(
        SummaryOf(rows),
        m, g, w, Ticks(m),
        seq(n, i requires 0 <= i < n => BarFor(rows, i, m, w, g, peak)),
        seq(|shown|, k requires 0 <= k < |shown| => LabelFor(shown[k], w, g)),
        seq(Min(20, n), i requires 0 <= i < Min(20, n) => TableRowFor(rows, i)))
  }

  /** The summary of a non-empty list: the day total, the mean per hour,
      and the first row holding the largest total, shown one-based. */
  lemma SummaryFacts(rows: seq<PredictionRow>)
    requires |rows| > 0
    ensures var s := Render(rows).summary;
      && s.total == SumTotals(rows)
      && s.meanPerHour == SumMeans(rows) / |rows| as real
      && 1 <= s.peakRow <= |rows|
      && IsFirstMax(rows, s.peakRow - 1)
      && s.peakValue == rows[s.peakRow - 1].dayTotal
  {
    assert Render(rows).summary == SummaryOf(rows);
  }

  /** Exactly one bar, the peak row's, has the peak fill. */
  lemma ExactlyOnePeak(rows: seq<PredictionRow>)
    requires |rows| > 0
    ensures var bars := Render(rows).bars;
      (set i | 0 <= i < |bars| && bars[i].peak) == {Render(rows).summary.peakRow - 1}
  {
  }

  /** No bar is drawn taller than the peak bar. */
  lemma PeakBarTallest(rows: seq<PredictionRow>, i: int)
    requires 0 <= i < |rows|
    ensures var v := Render(rows); v.bars[i].height <= v.bars[v.summary.peakRow - 1].height
  {
    var v := Render(rows);
    var p := PeakIndex(rows);
    HeightMonotone(rows[i].dayTotal, rows[p].dayTotal, v.maxTotal);
  }

  /** Bars are placed left to right, one gap apart at least, and with at most
      81 rows the last bar ends inside the plotting area. */
  lemma BarsLaidOut(rows: seq<PredictionRow>, i: int, j: int)
    requires 0 <= i < j < |rows|
    ensures var v := Render(rows);
      && v.bars[i].x + v.bars[i].width + v.gap <= v.bars[j].x
      && (|rows| <= 81 ==> v.bars[j].x + v.bars[j].width <= PadLeft + InnerW)
  {
    var v := Render(rows);
    BarsOrdered(i, j, v.barWidth, v.gap);
    if |rows| <= 81 {
      LastBarInside(|rows|);
      if j < |rows| - 1 {
        BarsOrdered(j, |rows| - 1, v.barWidth, v.gap);
      }
    }
  }

  /** Every bar of a row with a non-negative total is between 1 and
      `innerH` high, with its top inside the plot. */
  lemma BarsInsidePlot(rows: seq<PredictionRow>, i: int)
    requires 0 <= i < |rows| && rows[i].dayTotal >= 0.0
    ensures var b := Render(rows).bars[i];
      && 1.0 <= b.height <= InnerH as real
      && PadTop as real <= b.top <= (PadTop + InnerH) as real
      && b.caption == rows[i].dayTotal
  {
    HeightBounds(rows[i].dayTotal, MaxTotal(rows));
  }

  /** A bar ends on the plot's base when its computed height is at least 1;
      otherwise the one-pixel floor makes it reach below the base, by at most
      a pixel. */
  lemma {:induction false} BarsEndOnBase(rows: seq<PredictionRow>, i: int)
    requires 0 <= i < |rows| && rows[i].dayTotal >= 0.0
    ensures Render(rows).bars[i].top + Render(rows).bars[i].height <= (PadTop + InnerH) as real + 1.0
    ensures BarHeight(rows[i].dayTotal, MaxTotal(rows)) >= 1.0 ==>
      Render(rows).bars[i].top + Render(rows).bars[i].height == (PadTop + InnerH) as real
    ensures BarHeight(rows[i].dayTotal, MaxTotal(rows)) < 1.0 ==>
      Render(rows).bars[i].top + Render(rows).bars[i].height > (PadTop + InnerH) as real
  {
    var b := Render(rows).bars[i];
    var h := BarHeight(rows[i].dayTotal, MaxTotal(rows));
    assert b.top == BarTop(rows[i].dayTotal, MaxTotal(rows)) && b.height == DrawnHeight(h);
    HeightBounds(rows[i].dayTotal, MaxTotal(rows));
    BarBottom(rows[i].dayTotal, MaxTotal(rows));
  }

  /** The layout of a rendered list follows its length and its peak: the
      gap is between 2 and 6 (6 up to 18 rows, 2 from 37 on), bars are at
      least 6 wide and, with at most 81 rows, as wide as the plot allows to
      the pixel, and the scale runs to the peak total, raised to 1 when the
      peak is below 1. */
  lemma {:induction false} RenderLayout(rows: seq<PredictionRow>)
    requires |rows| > 0
    ensures Render(rows).Rendered?
    ensures 2 <= Render(rows).gap <= 6
    ensures |rows| <= 18 ==> Render(rows).gap == 6
    ensures |rows| >= 37 ==> Render(rows).gap == 2
    ensures Render(rows).barWidth >= 6
    ensures |rows| <= 81 ==>
      && |rows| * Render(rows).barWidth + Render(rows).gap * (|rows| - 1) <= InnerW
      && |rows| * (Render(rows).barWidth + 1) + Render(rows).gap * (|rows| - 1) > InnerW
    ensures |rows| > 81 ==> Render(rows).barWidth == 6
    ensures Render(rows).maxTotal ==
      var p := rows[Render(rows).summary.peakRow - 1].dayTotal; if p >= 1.0 then p else 1.0
  {
    var n := |rows|;
    var v := Render(rows);
    assert v.gap == Gap(n) && v.barWidth == BarWidth(n) && v.maxTotal == MaxTotal(rows);
    assert v.summary.peakRow - 1 == PeakIndex(rows);
    GapExtremes(n);
    if n <= 81 {
      WideUpTo81(n);
      BarsFitWhenWide(n);
    } else {
      NarrowFrom82(n);
    }
    MaxTotalIsPeak(rows);
  }

  /** The y axis of a rendered list: three ticks, at the top, the middle and
      the base of the plot, showing the scale maximum, half of it and 0,
      each rounded to hundredths. */
  lemma {:induction false} RenderTicks(rows: seq<PredictionRow>)
    requires |rows| > 0
    ensures Render(rows).Rendered?
    ensures |Render(rows).ticks| == 3
    ensures Render(rows).ticks[0] == Tick(PadTop as real, Round2(Render(rows).maxTotal))
    ensures Render(rows).ticks[1].y == (PadTop as real) + (InnerH as real) / 2.0
    ensures Render(rows).maxTotal / 2.0 - 0.005 < Render(rows).ticks[1].value <= Render(rows).maxTotal / 2.0 + 0.005
    ensures Render(rows).ticks[2] == Tick((PadTop + InnerH) as real, 0.0)
  {
    var v := Render(rows);
    assert v.ticks == Ticks(v.maxTotal);
    TicksSpanScale(v.maxTotal);
  }

  /** The fields of a rendered list, as `Render` computes them. */
  lemma {:induction false} RenderFields(rows: seq<PredictionRow>, i: int)
    requires 0 <= i < |rows|
    ensures Render(rows).Rendered?
    ensures Render(rows).gap == Gap(|rows|) && Render(rows).barWidth == BarWidth(|rows|)
    ensures Render(rows).maxTotal == MaxTotal(rows)
    ensures Render(rows).bars[i] ==
      BarFor(rows, i, MaxTotal(rows), BarWidth(|rows|), Gap(|rows|), PeakIndex(rows))
  {
  }

  /** Bars are placed left to right from the left padding: the first bar
      starts there, each next one a bar width plus a gap further right, and
      every bar is `barWidth` wide. */
  lemma {:induction false} BarsPlaced(rows: seq<PredictionRow>, i: int)
    requires 0 <= i < |rows|
    ensures Render(rows).Rendered?
    ensures i == 0 ==> Render(rows).bars[i].x == PadLeft
    ensures i + 1 < |rows| ==>
      Render(rows).bars[i + 1].x == Render(rows).bars[i].x + Render(rows).barWidth + Render(rows).gap
    ensures Render(rows).bars[i].width == Render(rows).barWidth
  {
    RenderFields(rows, i);
    var w := BarWidth(|rows|);
    var g := Gap(|rows|);
    if i + 1 < |rows| {
      RenderFields(rows, i + 1);
      NextBarX(i, w, g);
    }
  }

  /** A bar's height is its total's share of the scale maximum times
      `innerH`, raised to at least 1. */
  lemma {:induction false} BarsScaled(rows: seq<PredictionRow>, i: int)
    requires 0 <= i < |rows|
    ensures Render(rows).Rendered?
    ensures Render(rows).bars[i].height >= 1.0
    ensures DrawnToScale(Render(rows).bars[i].height, Render(rows).maxTotal, rows[i].dayTotal)
  {
    RenderFields(rows, i);
    DrawnScale(rows[i].dayTotal, Render(rows).maxTotal, Render(rows).bars[i].height);
  }

  /** A larger total never gets a shorter bar, nor one whose top is lower. */
  lemma {:induction false} BarsFollowTotals(rows: seq<PredictionRow>, i: int, j: int)
    requires 0 <= i < |rows| && 0 <= j < |rows| && rows[i].dayTotal <= rows[j].dayTotal
    ensures Render(rows).Rendered?
    ensures Render(rows).bars[i].height <= Render(rows).bars[j].height
    ensures Render(rows).bars[i].top >= Render(rows).bars[j].top
  {
    RenderFields(rows, i);
    RenderFields(rows, j);
    HeightMonotone(rows[i].dayTotal, rows[j].dayTotal, MaxTotal(rows));
  }

  /** A drawn height `d` on the scale `m` stands for `total`: scaled back
      by `m` it is at least the total times `innerH`, and equal to it unless
      the one-pixel floor applies. */
  predicate DrawnToScale(d: real, m: real, total: real) {
    && d * m >= total * InnerH as real
    && (d > 1.0 ==> d * m == total * InnerH as real)
  }

  /** The drawn height of a total stands for that total on its scale. */
  lemma DrawnScale(total: real, m: real, d: real)
    requires m > 0.0 && d == DrawnHeight(BarHeight(total, m))
    ensures DrawnToScale(d, m, total)
  {
    var h := BarHeight(total, m);
    ScaleBack(total, m);
    assert d * m >= h * m;
  }

  /** Scaling a total to the plot height and back by the scale maximum
      gives the total times `innerH`. */
  lemma ScaleBack(total: real, m: real)
    requires m > 0.0
    ensures BarHeight(total, m) * m == total * InnerH as real
  {
    assert total / m * m == total;
  }

  /** With a peak of at least 1 the peak bar fills the plot's height. */
  lemma {:induction false} PeakBarFull(rows: seq<PredictionRow>)
    requires |rows| > 0 && rows[PeakIndex(rows)].dayTotal >= 1.0
    ensures Render(rows).Rendered?
    ensures Render(rows).bars[PeakIndex(rows)].height == InnerH as real
    ensures Render(rows).bars[PeakIndex(rows)].top == PadTop as real
  {
    var p := PeakIndex(rows);
    RenderFields(rows, p);
    MaxTotalIsPeak(rows);
    FullHeight(rows[p].dayTotal);
  }

  /** Each x-axis label sits under the centre of the bar it numbers. */
  lemma {:induction false} LabelsCentred(rows: seq<PredictionRow>, k: int)
    requires |rows| > 0 && 0 <= k < |Render(rows).labels|
    ensures Render(rows).labels[k].index < |rows|
    ensures Render(rows).labels[k].x ==
      Render(rows).bars[Render(rows).labels[k].index].x as real
      + Render(rows).bars[Render(rows).labels[k].index].width as real / 2.0
  {
    var shown := XLabels(|rows|);
    assert Render(rows).labels[k].index == shown[k];
  }

  /** The labelled bars are those `ShowLabel` selects, in order, each
      labelled with its one-based number. */
  lemma LabelsSelected(rows: seq<PredictionRow>, i: int)
    requires 0 <= i < |rows|
    ensures var ls := Render(rows).labels;
      (ShowLabel(|rows|, i) <==> exists k :: 0 <= k < |ls| && ls[k].index == i)
    ensures var ls := Render(rows).labels;
      forall k :: 0 <= k < |ls| ==> ls[k].index < |rows| && ls[k].text == NatToString(ls[k].index + 1)
  {
    var shown := XLabels(|rows|);
    var ls := Render(rows).labels;
    if ShowLabel(|rows|, i) {
      var k :| 0 <= k < |shown| && shown[k] == i;
      assert ls[k].index == i;
    }
  }

  /** The detail table lists the first `min(20, n)` rows, numbered from 1. */
  lemma TableIsPrefix(rows: seq<PredictionRow>, i: int)
    requires 0 <= i < |rows|
    ensures var t := Render(rows).table;
      (i < 20 <==> i < |t|) && (i < |t| ==> t[i] == TableRow(i + 1, rows[i].meanPerHour, rows[i].dayTotal))
  {
  }

  /** A single row with 2.5 per hour and 60 for the day shows total 60,
      mean 2.5, peak in row 1 with 60, on a scale up to 60. */
  lemma SingleRowExample()
    ensures var v := Render([PredictionRow(2.5, 60.0)]);
      && v.summary == Summary(60.0, 2.5, 1, 60.0)
      && v.maxTotal == 60.0
      && |v.bars| == 1 && v.bars[0].peak
  {
    var rows := [PredictionRow(2.5, 60.0)];
    assert IsFirstMax(rows, 0);
    PeakIndexUnique(rows, 0);
    assert rows[..0] == [];
    assert SumMeans(rows) == 2.5;
  }
}

=== FILE: wrappers.dfy ===
/** Optional values and success/failure results, standing in for the
    `T | null` values and thrown errors of the upload front end. */
module Wrappers {

  /** A value that may be absent; `None` plays the role of `null`. */
  datatype Option<+T> = None | Some(value: T) {

    /** The value, or `default` when absent (the `??` operator). */
    function GetOr(default: T): T {
      match this
      case Some(v) => v
      case None => default
    }
  }

  /** The outcome of an operation that may throw: a value or an error. */
  datatype Result<+R, +E> = Ok(value: R) | Err(error: E)
}
